=== FILE: README.md ===
# Books and authentication API — a Dafny model

This project models the request-handling core of a small Express REST API. It has two parts.

- **Book catalogue**, stored in a MongoDB collection through Mongoose. The Joi schemas check request bodies and book ids. A service builds filter documents, pages and counts the results, and looks books up by id, ISBN, text, genre and author. It also creates, updates, deletes and restocks books. The controller maps each outcome to an HTTP status and a `{success, message, data | status}` envelope.
- **Authentication**, backed by a MySQL `users` table. Registration hashes the password with bcrypt and inserts a row. Login answers with a single error message whatever went wrong. Tokens are JWTs that expire after 24 hours. Middleware takes the token from the `token` cookie or from a `Bearer` header, verifies it, and loads the user. The controller sets the token only as an `httpOnly` cookie and never puts it in a response body.

## How things are modelled

- **Collections.**
  - The book collection is a class, `BookService.Catalogue`. It holds a map of documents and their ids in creation order. Newest-first order is the reverse of that sequence.
  - Its invariant says three things: ids are distinct ObjectId strings in the driver's lower-case form, every id in the order is a stored document, and no two documents share an ISBN (the unique, sparse index of `book.model.ts`).
  - The users table is a class, `AuthService.UserTable`. It holds the rows and the AUTO_INCREMENT counter. Its invariant says ids are positive and increasing, and emails are unique.
- **Pure functions and their methods.**
  - Lookups, validation and the middleware's decision are pure functions.
  - Operations that change a collection are methods whose `ensures` give the new state in terms of the old one.
  - `AuthMiddleware.Authenticate` follows the source step by step, reassigning its token variable, and is proved equal to the pure `AuthMiddleware.Decision`.
- **External code as parameters.** The model is given as parameters what the code gets from outside:
  - bcrypt and jsonwebtoken are function values in `AuthService.Crypto`;
  - case-insensitive `$regex` matching is a function `RegexMatch`;
  - the clock is an integer `now` in seconds;
  - the bcrypt salt is a string;
  - `NODE_ENV === 'production'` is a boolean;
  - the new document's ObjectId is an id chosen by the caller;
  - the year the book schema was loaded is `schemaYear`.
- **Library promises as preconditions.** What bcrypt and jsonwebtoken promise is stated as predicates: `HashSound` and `JwtSound`. Only the lemmas that need them take them as preconditions.
- **JavaScript values.**
  - Numbers are `real`.
  - `String.prototype.trim` removes the ECMAScript white-space and line-terminator characters.
  - A request body field is `Absent`, a string, a number, or anything else.

## Model

| member | source | states |
|---|---|---|
| `Common.Trim` | src/modules/books/book.validation.ts:4-13 | `trim()` cuts a run of white space from each end and leaves no space at either end; the result is never longer than the input |
| `Common.TrimIdempotent` | src/modules/books/book.model.ts:20-24 | trimming an already-trimmed value again (the schema's `trim: true` after Joi's `trim()`) changes nothing |
| `Common.TrimOfTrimmed` | src/modules/books/book.model.ts:20-48 | a string with no space at either end is its own trim |
| `ApiResponse.Success` | src/utils/response.ts:1-3 | the envelope has `success: true` and exactly the keys success/message/data; the message defaults to "OK" |
| `ApiResponse.Failure` | src/utils/response.ts:5-7 | the envelope has `success: false` and exactly the keys success/message/status; the defaults are "Error" and 400 |
| `ErrorHandling.ErrorHandler` | src/middleware/errorHandler.ts:9-38 | the body always has `success: false`; the status is the error's own `status` when it is an object carrying a non-null one, else 500; the message works the same way, falling back to "Internal Server Error" |
| `BookValidation.AllHex` | src/modules/books/book.validation.ts:86 | true exactly when every character is a hex digit |
| `BookValidation.AllIsbnChars` | src/modules/books/book.validation.ts:20 | true exactly when every character is a digit, `-` or `X` |
| `BookValidation.ValidBookId` | src/modules/books/book.validation.ts:83-91 | accepts exactly a present string of 24 hex digits; a missing id is refused |
| `BookValidation.TextField` | src/modules/books/book.validation.ts:4-16 | a string field passes exactly when its trimmed value has 1 to `maxLen` characters, and yields that trimmed value; a missing field is omitted unless required; a non-string is refused |
| `BookValidation.IsbnField` | src/modules/books/book.validation.ts:17-23 | passes exactly when the trimmed string is non-empty and in `[0-9-X]+`, yielding the trimmed string |
| `BookValidation.YearField` | src/modules/books/book.validation.ts:24-32 | passes exactly for an integer in [1000, year the schema was loaded + 10] |
| `BookValidation.PriceField` | src/modules/books/book.validation.ts:36-38 | passes exactly for a number at least 0 |
| `BookValidation.StockField` | src/modules/books/book.validation.ts:39-41 | passes exactly for an integer at least 0 |
| `BookValidation.ValidateCreate` | src/modules/books/book.validation.ts:3-42 | on success, title and author are present, trimmed and 1–255 long, and every field holds its converted value; a missing title or author is refused; when it refuses, no converted value is accepted by every field |
| `BookValidation.ValidateUpdate` | src/modules/books/book.validation.ts:44-81 | the same rules with title and author optional; accepted and refused bodies are characterised field by field |
| `BookValidation.CreateAcceptedImpliesUpdateAccepted` | src/modules/books/book.validation.ts:3-81 | every body the create schema accepts, the update schema accepts with the same value |
| `BookValidation.LowercaseXRejected` | src/modules/books/book.validation.ts:20 | an ISBN containing a lower-case `x` anywhere is refused |
| `BookService.LowerHexDigit` | src/modules/books/book.model.ts:4 | a hex digit read as an ObjectId digit: `A`–`F` become exactly `a`–`f`, every other character stays as it is |
| `BookService.ObjectIdKey` | src/modules/books/book.service.ts:82-95 | the stored id a string names when `findById`, `findByIdAndUpdate` or `findByIdAndDelete` casts it to an ObjectId: every id the id schema accepts names a lower-case ObjectId string, and a lower-case one names itself |
| `BookService.OneDocumentPerObjectId` | src/modules/books/book.model.ts:4 | in a collection keyed by ObjectIds, two keys that name the same ObjectId are the same key |
| `BookService.BuildFilterQuery` | src/modules/books/book.service.ts:33-63 | text filters go in only when non-empty; a price entry exists exactly when one of the bounds is defined and carries those bounds; the stock bound is copied; the year goes in only when non-zero |
| `BookService.EncodedQueryMeaning` | src/modules/books/book.service.ts:33-63 | a filter document built that way selects a book exactly when the book satisfies the caller's filters |
| `BookService.Matches` | src/modules/books/book.service.ts:33-67 | Mongo's reading of a filter document: the empty document selects every book, an empty `price` entry selects none, a `stock` bound and a `genre` entry constrain the selected book |
| `BookService.QueryMatches` | src/modules/books/book.service.ts:101-110 | a plain query means its filter document; the `$or` of `searchBooks` holds exactly when one of the text fields the book has (title, author, and description and genre when set) matches the pattern |
| `BookService.Select` | src/modules/books/book.service.ts:67 | the documents kept are exactly those the query matches |
| `BookService.SelectOfConcat` | src/modules/books/book.service.ts:67 | the query keeps the order of what it filters: selecting from two runs one after the other gives the selection of the first run followed by that of the second |
| `BookService.Matching` | src/modules/books/book.service.ts:66-69 | keeps exactly the input documents that satisfy the filters: each one kept satisfies them and comes from the input, and each input document that satisfies them is kept |
| `BookService.SelectAgrees` | src/modules/books/book.service.ts:66-69 | evaluating the filter document gives the same sequence as filtering by the reference semantics |
| `BookService.Paginate` | src/modules/books/book.service.ts:30 | `skip`/`limit` return at most `limit` documents: exactly those from position `skip` on, so only documents of the sequence they were cut from |
| `BookService.CeilDiv` | src/modules/books/book.service.ts:71 | `Math.ceil(total / limit)`: the smallest page count whose pages hold `total` documents, 0 for no documents |
| `BookService.NewestFirst` | src/modules/books/book.model.ts:60 | lists every document once, in reverse creation order |
| `BookService.FirstWithIsbn` | src/modules/books/book.service.ts:97-99 | finds a document with that ISBN whenever one exists |
| `BookService.Remove` | src/modules/books/book.service.ts:93-95 | removes exactly the deleted id and keeps the others distinct |
| `BookService.NewBook` | src/modules/books/book.model.ts:18-58 | the document `new Book(data)` stores: the given id, title and author trimmed, each optional text field present exactly when given and then holding the given value trimmed, year and price copied, stock defaulting to 0 |
| `BookService.ApplyUpdate` | src/modules/books/book.service.ts:86-91 | `$set` of the update body: keys the body leaves out keep their values, given title, author, description, ISBN and genre are stored trimmed, given numbers replace the old ones; the id never changes |
| `BookService.StoreKeepsIsbnUnique` | src/modules/books/book.model.ts:34-38 | writing a document whose ISBN no other document holds keeps the unique sparse ISBN index consistent |
| `BookService.DistinctCard` | src/modules/books/book.service.ts:68 | a sequence without repeats has as many distinct elements as entries |
| `BookService.Catalogue.constructor` | src/modules/books/book.model.ts:18-63 | an empty collection satisfies the invariant |
| `BookService.Catalogue.Listing` | src/modules/books/book.service.ts:67 | every stored document, in reverse creation order, once each |
| `BookService.Catalogue.Find` | src/modules/books/book.service.ts:102-109 | returns exactly the stored documents the query matches |
| `BookService.Catalogue.GetById` | src/modules/books/book.service.ts:82-84 | the document under the ObjectId the string names, whatever the case of its hex letters, or nothing when none has it |
| `BookService.Catalogue.GetByIsbn` | src/modules/books/book.service.ts:97-99 | a stored document with that ISBN, and nothing exactly when no document has it |
| `BookService.Catalogue.SearchBooks` | src/modules/books/book.service.ts:101-110 | returns exactly the documents whose title, author, description or genre matches |
| `BookService.Catalogue.BooksByGenre` | src/modules/books/book.service.ts:120-124 | returns exactly the documents whose genre matches |
| `BookService.Catalogue.BooksByAuthor` | src/modules/books/book.service.ts:126-130 | returns exactly the documents whose author matches |
| `BookService.Catalogue.GetAll` | src/modules/books/book.service.ts:25-80 | page and limit default to 1 and 10; `total` counts every match; the books are the requested page of the newest-first matches; `totalPages` rounds up |
| `BookService.Catalogue.Create` | src/modules/books/book.service.ts:20-23 | the store refuses a document without title or author, or with an ISBN another document holds, and then changes nothing; otherwise it stores the trimmed document with stock defaulting to 0 as the newest, under an ObjectId no stored document has in any spelling; the invariant holds |
| `BookService.Catalogue.Update` | src/modules/books/book.service.ts:86-91 | the id is read as an ObjectId, ignoring case; nothing for an unknown id; refused when another document holds the new ISBN; otherwise only the given keys change; the invariant holds |
| `BookService.Catalogue.Delete` | src/modules/books/book.service.ts:93-95 | the id is read as an ObjectId, ignoring case; returns the removed document exactly when it was stored; the other documents are unchanged; the id leaves the creation order, which is otherwise kept, and an unknown id changes nothing |
| `BookService.Catalogue.UpdateStock` | src/modules/books/book.service.ts:112-118 | the id is read as an ObjectId, ignoring case; `$inc` adds the quantity to the stock of that one document and returns it; nothing for an unknown id |
| `BookController.GetAll` | src/modules/books/book.controller.ts:38-62 | 200 with the requested page: the books are the `limit` newest-first matches after skipping `(page - 1) * limit`; the total counts every book satisfying the query filters; `totalPages` is the smallest page count that holds them; page and limit default to 1 and 10 |
| `BookController.GetById` | src/modules/books/book.controller.ts:65-83 | 400 exactly for a malformed id, 404 exactly when no stored document has that ObjectId, else 200 with the book |
| `BookController.GetByIdIgnoresCase` | src/modules/books/book.controller.ts:65-83 | two spellings of an id that differ only in the case of their hex letters get the same answer |
| `BookController.Search` | src/modules/books/book.controller.ts:147-160 | 400 exactly when `q` is missing or empty, else 200 with the search results |
| `BookController.GetByGenre` | src/modules/books/book.controller.ts:163-176 | 400 exactly for an empty genre, else 200 with that genre's books |
| `BookController.GetByAuthor` | src/modules/books/book.controller.ts:179-192 | 400 exactly for an empty author, else 200 with that author's books |
| `BookController.Create` | src/modules/books/book.controller.ts:11-35 | 400 for an invalid body and 409 for a taken ISBN, both leaving the store unchanged; otherwise 201 with the stored book, now the newest |
| `BookController.Update` | src/modules/books/book.controller.ts:86-122 | 400 for the id, 400 for the body, 404 when no stored document has that ObjectId in any spelling, then 409 only when the ISBN changes to one another book holds; otherwise 200 with the updated book |
| `BookController.Delete` | src/modules/books/book.controller.ts:125-144 | 400 for a malformed id and 404 when no document is stored under its ObjectId, whatever the case of its letters, both leaving the documents and their order unchanged; else 200 with the book removed from the documents and from the order |
| `BookController.UpdateStock` | src/modules/books/book.controller.ts:195-219 | 400 for a malformed id or a non-number quantity, 404 when no document is stored under its ObjectId, whatever the case of its letters, else 200 with the stock increased by the quantity |
| `AuthService.ConfiguredJwtSecret` | src/config/env.ts:6 | `ENV.JWT_SECRET` is the environment variable when it is set and non-empty, else "supersecret"; never empty |
| `AuthService.JwtSecret` | src/modules/auth/auth.service.ts:14 | the configured secret, or "your-secret-key" when it is empty |
| `AuthService.ServiceSecretIsEnvironmentSecret` | src/modules/auth/auth.service.ts:14 | composed with `ENV.JWT_SECRET`, the service signs with the environment variable or "supersecret": its own "your-secret-key" fallback is never taken |
| `AuthService.FindByEmail` | src/modules/auth/auth.service.ts:94-103 | a row with that email, and null exactly when no row has it |
| `AuthService.FindById` | src/modules/auth/auth.service.ts:105-114 | a row with that id, and null exactly when no row has it |
| `AuthService.FindByEmailAppend` | src/modules/auth/auth.service.ts:94-103 | after an insert, a lookup by email finds the old rows first, then the new one |
| `AuthService.FindByIdAppend` | src/modules/auth/auth.service.ts:105-114 | after an insert, a lookup by id finds the old rows first, then the new one |
| `AuthService.GenerateToken` | src/modules/auth/auth.service.ts:116-120 | with a sound signer, the token is non-empty and verifies at issue time to the payload with a 24-hour expiry |
| `AuthService.VerifyToken` | src/modules/auth/auth.service.ts:122-128 | fails exactly when the verifier throws, always with "Invalid or expired token"; otherwise returns the token's payload |
| `AuthService.TokenRoundTrip` | src/modules/auth/auth.service.ts:116-128 | a generated token verifies to its own payload for 24 hours and is refused from then on |
| `AuthService.Login` | src/modules/auth/auth.service.ts:64-92 | succeeds exactly when the email is stored and the password matches its hash, with the stored user and a token for it; every failure reads "Invalid email or password" |
| `AuthService.LoginFailuresIndistinguishable` | src/modules/auth/auth.service.ts:66-75 | an unknown email and a wrong password give the same answer |
| `AuthService.NewRow` | src/modules/auth/auth.service.ts:24-37 | the inserted row carries the next id, the name and email given, `NOW()` for both timestamps, and a hash the password matches under bcrypt's promise |
| `AuthService.EmailIdentifiesRow` | database/migrations/20241003125300_create_users_table.ts:10-12 | under the unique email column, every row with the looked-up email is the row the lookup found |
| `AuthService.IdIdentifiesRow` | database/migrations/20241003125300_create_users_table.ts:10-12 | under the AUTO_INCREMENT key, every row with the looked-up id is the row the lookup found |
| `AuthService.RegisterThenLogin` | src/modules/auth/auth.service.ts:17-92 | after registering, the same email and password log in as the new user |
| `AuthService.UserTable.constructor` | database/migrations/20241003125300_create_users_table.ts:10-12 | an empty table satisfies the invariant |
| `AuthService.UserTable.FindUserByEmail` | src/modules/auth/auth.service.ts:94-103 | null exactly when no row has the email; otherwise a row with it, and in a valid table the only one |
| `AuthService.UserTable.FindUserById` | src/modules/auth/auth.service.ts:105-114 | null exactly when no row has the id; otherwise a row with it, and in a valid table the only one |
| `AuthService.UserTable.LoginUser` | src/modules/auth/auth.service.ts:64-92 | every failure reads "Invalid email or password"; success answers as a stored row with that email whose hash the password matches, and in a valid table such a row always lets the login succeed |
| `AuthService.UserTable.Register` | src/modules/auth/auth.service.ts:17-62 | a stored email is refused with "Email already registered" and nothing is inserted; otherwise one row is inserted with the next id and the password's hash, and the answer carries that user and a 24-hour token; ids stay increasing and emails unique |
| `AuthMiddleware.ExtractToken` | src/middleware/authMiddleware.ts:21-28 | a non-empty cookie wins; otherwise the text after `Bearer ` in the header; never an empty token |
| `AuthMiddleware.Decision` | src/middleware/authMiddleware.ts:14-76 | no token gives 401 "Access denied. No token provided."; a token that fails verification gives 401 "Invalid or expired token", and the cookie is cleared exactly when the request carried one; the request goes on exactly when the token verifies, the lookup succeeds and the user exists, with `req.user` copied from the stored row |
| `AuthMiddleware.Authenticate` | src/middleware/authMiddleware.ts:14-76 | the step-by-step middleware reaches the same outcome as the decision above |
| `AuthMiddleware.RegisteredTokenAuthenticates` | src/middleware/authMiddleware.ts:21-54 | the token register hands out admits its user for 24 hours, both from the cookie and from a `Bearer` header |
| `AuthMiddleware.ExpiredCookieIsCleared` | src/middleware/authMiddleware.ts:58-71 | after 24 hours the same cookie is refused and cleared |
| `AuthController.TokenCookieOptions` | src/modules/auth/auth.controller.ts:32-37 | the cookie is `httpOnly` and `sameSite` strict, and `secure` exactly in production |
| `AuthController.Register` | src/modules/auth/auth.controller.ts:18-57 | 400 for a refused body and 409 for a taken email, both inserting nothing and leaving the id counter alone; else one row inserted under the next id, the counter advanced by one, and 201 with the user in the body and the token only in a one-hour cookie |
| `AuthController.Login` | src/modules/auth/auth.controller.ts:59-103 | 400 for a refused body, 401 "Invalid email or password" for any bad credentials, else 200 with the user in the body and the token only in a 24-hour cookie |
| `AuthController.Logout` | src/modules/auth/auth.controller.ts:105-120 | 200 "Logout successful" and the `token` cookie cleared with the options it was set with |
| `AuthController.Me` | src/modules/auth/auth.controller.ts:122-155 | 401 when `req.user` is missing or its id is 0, 404 when the row is gone, else 200 with id, name, email and timestamps of the stored row, never the password |
| `AuthController.RegisterThenMe` | src/modules/auth/auth.controller.ts:122-155 | after registering, the token in the cookie admits the user through the middleware until it expires, and `me` finds the row just inserted |

## Left out

- **Joi details.**
  - Error messages: the text of a Joi message (`error.details[0].message`) is the single constant "Invalid request body"; `errorResponse`'s `details` field is not modelled.
  - Number conversion: Joi's conversion of numeric strings to numbers is not modelled, so a number sent as a string is refused. The `number.unsafe` range check is also left out.
  - Unknown keys: Joi refuses them, but the body model has only the eight schema keys, so they cannot occur.
  - `string.max` counts UTF-16 code units, while the model counts Dafny characters.
- **Auth schemas.** `src/modules/auth/auth.validation.ts` is not part of this model. Register and login receive what that schema let through, as an `Option`.
- **Regular expressions.** Regular expressions and their case-insensitivity are not modelled. The controller passes user text to `$regex` unescaped, so the meaning of any pattern is left to the `RegexMatch` parameter.
- **Mongoose validators.** They are not modelled on save or update: `min`/`max` on `publishedYear`, `price` and `stock`, and `required` under `runValidators`. The same bounds are enforced by the Joi schemas before the store is reached. Only the `required` title and author on create and the unique ISBN index are modelled.
  - `BookService.Catalogue.UpdateStock` lets the stock go below 0. Mongoose's update validators do not run for `$inc`, and `updateStock` in the controller does not check the quantity's sign.
- **`createdAt`/`updatedAt` on books.** These are not stored. Order is creation order. Ties between documents created in the same millisecond are not modelled.
- **Paging.** `BookController.GetAll` and `BookService.Catalogue.GetAll` require a page and a limit of at least 1. Outside that range the source behaves as follows, and none of it is modelled:
  - A limit of 0 means "no limit" to MongoDB: the answer is 200 with every match. `totalPages` is `Math.ceil(total / 0)`, which is `Infinity` when there are matches and `NaN` when there are none; JSON serialises both as `null`.
  - A negative limit is read by MongoDB as a single batch of at most its absolute value, and `totalPages` comes out 0 or negative.
  - A page of 0 or less gives a negative skip, which MongoDB rejects; that ends in the 500 answer.
  - A non-numeric (`NaN`) page or limit is covered by the NaN line below.
- **NaN and Infinity.** Neither is modelled for any number.
- **Store and library failures.** A failure of the database, bcrypt or jsonwebtoken is not modelled as such, and neither are the 500 answers that follow from it.
  - The middleware's "Authentication failed" answer is the one exception: the `storeFails` flag stands for the user lookup throwing.
  - The "Failed to create user" branch of `register` is not reachable in the sequential model. Instead it is proved that the inserted row is found.
  - Likewise the "Failed to create book" and "Failed to update book" answers: the controller has checked for the ISBN conflict the store would raise just before.
- **Concurrency.** Concurrent requests are not modelled. This includes the window between the ISBN or email check and the insert, which the unique index or the unique email column closes in the real system.
- **Ids that are not ObjectIds.** `BookService.Catalogue.GetById`, `Update`, `Delete` and `UpdateStock` answer "nothing" for a string that is not 24 hex digits. Mongoose would instead throw a cast error, or read a 12-character string as the ObjectId's raw bytes. The controllers check the id's format first, so they never pass such a string.
- **Email comparison.** MySQL's collation compares emails case-insensitively. The model compares them exactly.
- **Response envelopes.** `src/utils/response.ts` exports `success` and `failure`, but the auth handlers import `errorResponse` and `successResponse`, which it does not define. The auth handlers are therefore modelled with their own message-and-data body. The book controller uses `success`/`failure` as written.
- **Logging, helmet, CORS, and the Express/Mongo/MySQL setup.** None of these is modelled.
- **Unreachable `InvalidCredentialsError` branch.** The login controller's `InvalidCredentialsError` branch is not modelled separately: the service never throws that class, and its message matches the next branch.
- **Cookie lifetime.** The register cookie lasts one hour while its token stays valid for 24 hours. The model keeps both values as written. The browser's expiry of the cookie is not modelled: `AuthMiddleware.RegisteredTokenAuthenticates` and `AuthController.RegisterThenMe` show that the token itself is accepted for 24 hours, and the former shows it also works through a `Bearer` header after the cookie is gone.
- **Secret configuration.** `dotenv` loading the `.env` file is not modelled; the process environment's `JWT_SECRET` is a parameter.

=== FILE: auth_controller.dfy ===
/** The handlers of src/modules/auth/auth.controller.ts. Each answers with a
    status, what it does to the `token` cookie and a JSON body; the token
    travels only in the cookie, never in the body. */
module AuthController {
  import opened Common
  import AuthService
  import opened AuthMiddleware

  /** The options every `token` cookie is set or cleared with. */
  datatype CookieOptions = CookieOptions(httpOnly: bool, secure: bool, sameSite: string)

  /** `res.cookie('token', value, {...options, maxAge})`, `res.clearCookie('token', options)`,
      or neither. */
  datatype CookieAction =
    | KeepCookie
    | SetCookie(name: string, value: string, maxAgeMs: int, options: CookieOptions)
    | ClearCookie(name: string, options: CookieOptions)

  /** The profile `me` returns: the stored row without its password. */
  datatype Profile = Profile(id: int, name: string, email: string, createdAt: int, updatedAt: int)

  datatype AuthData = UserData(user: AuthService.PublicUser) | ProfileData(profile: Profile) | NoData

  /** `successResponse(message, data)` or `errorResponse(message, details)`;
      the validation details are not modelled. */
  datatype AuthBody = SuccessResponse(message: string, data: AuthData) | ErrorResponse(message: string)

  datatype AuthHttpResponse = AuthHttpResponse(status: int, cookie: CookieAction, body: AuthBody)

  const TokenCookie := "token"
  /** One hour, in milliseconds. */
  const RegisterCookieMaxAge := 1 * 60 * 60 * 1000
  /** 24 hours, in milliseconds. */
  const LoginCookieMaxAge := 24 * 60 * 60 * 1000

  const MsgValidationFailed := "Validation failed"
  const MsgRegistrationFailed := "Registration failed"
  const MsgLoginFailed := "Login failed"

  /** `httpOnly`, `sameSite: 'strict'`, and `secure` exactly in production. */
  function TokenCookieOptions(production: bool): (o: CookieOptions)
    ensures o.httpOnly && o.sameSite == "strict"
    ensures o.secure <==> production
  {
    CookieOptions(true, production, "strict")
  }

  function Refuse(status: int, message: string): AuthHttpResponse {
    AuthHttpResponse(status, KeepCookie, ErrorResponse(message))
  }

  /** `register`: `body` is what `registerSchema` let through (`None` when
      it refused the request). 400 on a refused body, 409 on a taken email,
      otherwise 201 with the new user in the body and its token in a cookie
      that lasts one hour. */
  method Register(users: AuthService.UserTable, body: Option<AuthService.RegisterRequest>, c: AuthService.Crypto,
                  secret: string, salt: string, now: int, production: bool) returns (resp: AuthHttpResponse)
    requires users.Valid()
    modifies users
    ensures users.Valid()
    ensures body.None? ==> resp == Refuse(400, "Validation failed") && unchanged(users)
    ensures body.Some? && old(AuthService.FindByEmail(users.rows, body.value.email)).Some? ==>
      resp == Refuse(409, "Email already registered") && users.rows == old(users.rows) && users.nextId == old(users.nextId)
    ensures body.Some? && old(AuthService.FindByEmail(users.rows, body.value.email)).None? ==>
      var row := AuthService.NewRow(old(users.nextId), body.value, c, salt, now);
      && users.rows == old(users.rows) + [row]
      && users.nextId == old(users.nextId) + 1
      && resp.status == 201
      && resp.cookie == SetCookie("token", AuthService.GenerateToken(c, secret, AuthService.PayloadOf(row), now), 3600000, TokenCookieOptions(production))
      && resp.body == SuccessResponse("User registered successfully", UserData(AuthService.PublicUser(row.id, row.name, row.email)))
  {
    if body.None? {
      return Refuse(400, MsgValidationFailed);
    }
    var result := users.Register(body.value, c, secret, salt, now);
    if result.Err? {
      if result.error == AuthService.MsgEmailTaken {
        return Refuse(409, AuthService.MsgEmailTaken);
      }
      return Refuse(500, MsgRegistrationFailed);
    }
    var cookie := SetCookie(TokenCookie, result.value.token, RegisterCookieMaxAge, TokenCookieOptions(production));
    resp := AuthHttpResponse(201, cookie, SuccessResponse("User registered successfully", UserData(result.value.user)));
  }

  /** `login`: 400 on a refused body, 401 with the one credentials message
      whatever was wrong, otherwise 200 with the user in the body and the
      token in a cookie that lasts 24 hours. */
  method Login(users: AuthService.UserTable, body: Option<AuthService.LoginRequest>, c: AuthService.Crypto,
               secret: string, now: int, production: bool) returns (resp: AuthHttpResponse)
    ensures body.None? ==> resp == Refuse(400, "Validation failed")
    ensures body.Some? && AuthService.Login(users.rows, body.value, c, secret, now).Err? ==>
      resp == Refuse(401, "Invalid email or password")
    ensures body.Some? && AuthService.Login(users.rows, body.value, c, secret, now).Ok? ==>
      var user := AuthService.FindByEmail(users.rows, body.value.email).value;
      && resp.status == 200
      && resp.cookie == SetCookie("token", AuthService.GenerateToken(c, secret, AuthService.PayloadOf(user), now), 86400000, TokenCookieOptions(production))
      && resp.body == SuccessResponse("Login successful", UserData(AuthService.PublicUser(user.id, user.name, user.email)))
  {
    if body.None? {
      return Refuse(400, MsgValidationFailed);
    }
    var result := users.LoginUser(body.value, c, secret, now);
    if result.Err? {
      if result.error == AuthService.MsgBadCredentials {
        return Refuse(401, result.error);
      }
      return Refuse(500, MsgLoginFailed);
    }
    var cookie := SetCookie(TokenCookie, result.value.token, LoginCookieMaxAge, TokenCookieOptions(production));
    resp := AuthHttpResponse(200, cookie, SuccessResponse("Login successful", UserData(result.value.user)));
  }

  /** `logout`: clears the cookie with the options it was set with. */
  method Logout(production: bool) returns (resp: AuthHttpResponse)
    ensures resp.status == 200 && resp.body == SuccessResponse("Logout successful", NoData)
    ensures resp.cookie.ClearCookie? && resp.cookie.name == "token"
    ensures resp.cookie.options.httpOnly && resp.cookie.options.sameSite == "strict"
    ensures resp.cookie.options.secure <==> production
  {
    resp := AuthHttpResponse(200, ClearCookie(TokenCookie, TokenCookieOptions(production)), SuccessResponse("Logout successful", NoData));
  }

  /** `me`: `user` is `req.user` as the middleware left it. A missing user
      or id 0 (falsy) is 401; an id no longer in the table is 404. */
  method Me(users: AuthService.UserTable, user: Option<RequestUser>) returns (resp: AuthHttpResponse)
    ensures resp.cookie == KeepCookie
    ensures user.None? || user.value.id == 0 ==> resp == Refuse(401, "User not found")
    ensures user.Some? && user.value.id != 0 && AuthService.FindById(users.rows, user.value.id).None? ==>
      resp == Refuse(404, "User not found")
    ensures resp.status == 200 <==> user.Some? && user.value.id != 0 && AuthService.FindById(users.rows, user.value.id).Some?
    ensures resp.status == 200 ==>
      exists u :: u in users.rows && u.id == user.value.id &&
        resp.body == SuccessResponse("User profile retrieved", ProfileData(Profile(u.id, u.name, u.email, u.createdAt, u.updatedAt)))
  {
    if user.None? || user.value.id == 0 {
      return Refuse(401, MsgUserNotFound);
    }
    var row := users.FindUserById(user.value.id);
    if row.None? {
      return Refuse(404, MsgUserNotFound);
    }
    var u := row.value;
    resp := AuthHttpResponse(200, KeepCookie, SuccessResponse("User profile retrieved", ProfileData(Profile(u.id, u.name, u.email, u.createdAt, u.updatedAt))));
  }

  /** Registering and then calling `me` with the `token` cookie just set
      returns the profile of the row just inserted until the token expires,
      24 hours after it was issued. The middleware checks only the token's
      own expiry: the cookie's one-hour `maxAge` is applied by the browser,
      so a client that keeps sending the token after that hour is still let
      in. */
  lemma RegisterThenMe(rows: seq<AuthService.UserRow>, nextId: int, req: AuthService.RegisterRequest, c: AuthService.Crypto,
                       salt: string, secret: string, now: int, later: int)
    requires AuthService.TableInvariant(rows, nextId)
    requires AuthService.JwtSound(c)
    requires now <= later < now + 86400
    ensures var row := AuthService.NewRow(nextId, req, c, salt, now);
      var token := AuthService.GenerateToken(c, secret, AuthService.PayloadOf(row), now);
      var out := Decision(rows + [row], AuthRequest(Some(token), None), c, secret, later, false);
      && out.Next?
      && out.user.id != 0
      && AuthService.FindById(rows + [row], out.user.id) == Some(row)
  {
    var row := AuthService.NewRow(nextId, req, c, salt, now);
    RegisteredTokenAuthenticates(rows, nextId, req, c, salt, secret, now, later);
    AuthService.FindByIdAppend(rows, row, nextId);
  }
}

=== FILE: auth_middleware.dfy ===
/** `authMiddleware` of src/middleware/authMiddleware.ts: finds a token in
    the `token` cookie or a `Bearer` header, verifies it, loads the user it
    names and either passes the request on with `req.user` set or answers 401. */
module AuthMiddleware {
  import opened Common
  import opened AuthService

  /** What the middleware reads of a request: `req.cookies?.token` and
      `req.headers.authorization`. */
  datatype AuthRequest = AuthRequest(cookieToken: Option<string>, authorization: Option<string>)

  /** `req.user`, copied from the stored row. */
  datatype RequestUser = RequestUser(id: int, email: string, name: string)

  /** `next()` with `req.user` set, or a 401 answer with its message and
      whether the `token` cookie is cleared. */
  datatype Outcome = Next(user: RequestUser) | Unauthorized(message: string, clearCookie: bool)

  const MsgNoToken := "Access denied. No token provided."
  const MsgUserNotFound := "User not found"
  const MsgAuthFailed := "Authentication failed"
  const BearerPrefix := "Bearer "

  /** A JavaScript string value that is neither missing nor empty. */
  predicate Truthy(s: Option<string>) {
    s.Some? && s.value != ""
  }

  predicate StartsWith(s: string, prefix: string) {
    |prefix| <= |s| && s[..|prefix|] == prefix
  }

  /** The token the middleware uses: the cookie when it is non-empty,
      otherwise what follows `Bearer ` in the header, `None` when neither
      yields a non-empty string. */
  function ExtractToken(req: AuthRequest): (t: Option<string>)
    ensures t.Some? ==> t.value != ""
    ensures Truthy(req.cookieToken) ==> t == req.cookieToken
    ensures !Truthy(req.cookieToken) && t.Some? ==>
      req.authorization.Some? && req.authorization.value == "Bearer " + t.value
    ensures (!Truthy(req.cookieToken) && req.authorization.Some? && |req.authorization.value| > 7 &&
             req.authorization.value[..7] == "Bearer ") ==> t == Some(req.authorization.value[7..])
  {
    if Truthy(req.cookieToken) then req.cookieToken
    else if req.authorization.Some? && StartsWith(req.authorization.value, BearerPrefix) &&
      req.authorization.value[|BearerPrefix|..] != ""
    then
      assert req.authorization.value == BearerPrefix + req.authorization.value[|BearerPrefix|..];
      Some(req.authorization.value[|BearerPrefix|..])
    else None
  }

  /** What the middleware decides for a request against the table `rows`.
      `storeFails` stands for the user lookup throwing (a database error),
      which ends in the catch-all answer. */
  function Decision(rows: seq<UserRow>, req: AuthRequest, c: Crypto, secret: string, now: int, storeFails: bool): (out: Outcome)
    ensures ExtractToken(req).None? ==> out == Unauthorized("Access denied. No token provided.", false)
    ensures ExtractToken(req).Some? && c.verify(ExtractToken(req).value, secret, now).None? ==>
      out == Unauthorized("Invalid or expired token", Truthy(req.cookieToken))
    ensures out.Unauthorized? && out.clearCookie ==> out.message == "Invalid or expired token" && Truthy(req.cookieToken)
    ensures out.Next? <==>
      && ExtractToken(req).Some?
      && c.verify(ExtractToken(req).value, secret, now).Some?
      && !storeFails
      && FindById(rows, c.verify(ExtractToken(req).value, secret, now).value.payload.id).Some?
    ensures out.Next? ==> exists u :: u in rows && out.user == RequestUser(u.id, u.email, u.name)
    ensures out.Next? ==> out.user.id == c.verify(ExtractToken(req).value, secret, now).value.payload.id
  {
    var token := ExtractToken(req);
    if token.None? then Unauthorized(MsgNoToken, false)
    else
      var decoded := VerifyToken(c, secret, token.value, now);
      if decoded.Err? then Unauthorized(MsgBadToken, Truthy(req.cookieToken))
      else if storeFails then Unauthorized(MsgAuthFailed, false)
      else
        var user := FindById(rows, decoded.value.id);
        if user.None? then Unauthorized(MsgUserNotFound, false)
        else Next(RequestUser(user.value.id, user.value.email, user.value.name))
  }

  /** `authMiddleware`, step by step: the token variable starts as the
      cookie and is replaced by the header's token when the cookie is empty. */
  method Authenticate(users: UserTable, req: AuthRequest, c: Crypto, secret: string, now: int, storeFails: bool) returns (out: Outcome)
    ensures out == Decision(users.rows, req, c, secret, now, storeFails)
  {
    var token := req.cookieToken;
    if !Truthy(token) {
      var authorization := req.authorization;
      if authorization.Some? && authorization.value != "" && StartsWith(authorization.value, BearerPrefix) {
        token := Some(authorization.value[7..]);
      }
    }
    if !Truthy(token) {
      return Unauthorized(MsgNoToken, false);
    }
    var decoded := VerifyToken(c, secret, token.value, now);
    if decoded.Err? {
      return Unauthorized(MsgBadToken, Truthy(req.cookieToken));
    }
    if storeFails {
      return Unauthorized(MsgAuthFailed, false);
    }
    var user := users.FindUserById(decoded.value.id);
    if user.None? {
      return Unauthorized(MsgUserNotFound, false);
    }
    out := Next(RequestUser(user.value.id, user.value.email, user.value.name));
  }

  /** The token `register` hands out lets its user in, from the cookie or
      from a `Bearer` header, for 24 hours. Logging out clears only the
      cookie, so the header route keeps working: tokens are not revoked. */
  lemma RegisteredTokenAuthenticates(rows: seq<UserRow>, nextId: int, req: RegisterRequest, c: Crypto, salt: string, secret: string, now: int, later: int)
    requires TableInvariant(rows, nextId)
    requires JwtSound(c)
    requires now <= later < now + 86400
    ensures var row := NewRow(nextId, req, c, salt, now);
      var token := GenerateToken(c, secret, PayloadOf(row), now);
      && Decision(rows + [row], AuthRequest(Some(token), None), c, secret, later, false) == Next(RequestUser(nextId, req.email, req.name))
      && Decision(rows + [row], AuthRequest(None, Some("Bearer " + token)), c, secret, later, false) == Next(RequestUser(nextId, req.email, req.name))
  {
    var row := NewRow(nextId, req, c, salt, now);
    var token := GenerateToken(c, secret, PayloadOf(row), now);
    TokenRoundTrip(c, secret, PayloadOf(row), now, later);
    assert token != "";
    assert ("Bearer " + token)[7..] == token;
    FindByIdAppend(rows, row, nextId);
  }

  /** Once 24 hours have passed the same cookie is refused and cleared. */
  lemma ExpiredCookieIsCleared(rows: seq<UserRow>, c: Crypto, secret: string, p: JwtPayload, issuedAt: int, now: int, header: Option<string>, storeFails: bool)
    requires JwtSound(c)
    requires now >= issuedAt + 86400
    ensures Decision(rows, AuthRequest(Some(GenerateToken(c, secret, p, issuedAt)), header), c, secret, now, storeFails)
      == Unauthorized("Invalid or expired token", true)
  {
    TokenRoundTrip(c, secret, p, issuedAt, now);
  }
}

=== FILE: auth_service.dfy ===
/** Registration, login and tokens of src/modules/auth/auth.service.ts over
    the `users` table. bcrypt and jsonwebtoken are abstract: the service is
    handed their functions, and the lemmas that need what those libraries
    promise take it as a precondition. */
module AuthService {
  import opened Common

  /** A row of `users`; `password` holds the bcrypt hash. Timestamps are
      seconds. */
  datatype UserRow = UserRow(id: int, name: string, email: string, password: string, createdAt: int, updatedAt: int)

  /** The user object handed to clients: it has no password field. */
  datatype PublicUser = PublicUser(id: int, name: string, email: string)

  /** `JwtPayload`: what a token identifies. */
  datatype JwtPayload = JwtPayload(id: int, email: string, name: string)

  /** A signed token's claims: the payload, issued-at and expiry (seconds). */
  datatype Claims = Claims(payload: JwtPayload, iat: int, exp: int)

  datatype RegisterRequest = RegisterRequest(name: string, email: string, password: string)
  datatype LoginRequest = LoginRequest(email: string, password: string)

  /** `AuthResponse`: the public user and the token. */
  datatype AuthResponse = AuthResponse(user: PublicUser, token: string)

  /** The library functions the service calls:
      `hash(plaintext, cost, salt)` is bcrypt's hash with a random salt,
      `compare(plaintext, hash)` bcrypt's check,
      `sign(claims, secret)` jsonwebtoken's signer, and
      `verify(token, secret, now)` its verifier, `None` where it throws
      (bad signature, malformed token, or `now` at or past `exp`). */
  datatype Crypto = Crypto(
    hash: (string, nat, string) -> string,
    compare: (string, string) -> bool,
    sign: (Claims, string) -> string,
    verify: (string, string, int) -> Option<Claims>)

  /** bcrypt's promise: a password matches any hash made from it. */
  ghost predicate HashSound(c: Crypto) {
    forall pw, cost, salt :: c.compare(pw, c.hash(pw, cost, salt))
  }

  /** jsonwebtoken's promise for tokens it signed with the same secret: the
      claims come back until `exp`, and verification fails from `exp` on.
      A signed token is never the empty string (it has three dot-separated
      parts). */
  ghost predicate JwtSound(c: Crypto) {
    && (forall cl: Claims, secret: string :: c.sign(cl, secret) != "")
    && (forall cl: Claims, secret: string, now: int ::
          c.verify(c.sign(cl, secret), secret, now) == if now < cl.exp then Some(cl) else None)
  }

  const SaltRounds := 12
  /** The fallback of src/config/env.ts for an unset `JWT_SECRET`. */
  const EnvJwtSecretDefault := "supersecret"
  /** The service's own fallback, for an empty configured secret. */
  const DefaultJwtSecret := "your-secret-key"
  /** `jwtExpiresIn = '24h'`, in seconds; used for every token. */
  const JwtExpiresIn := 24 * 60 * 60

  const MsgEmailTaken := "Email already registered"
  const MsgCreateFailed := "Failed to create user"
  const MsgBadCredentials := "Invalid email or password"
  const MsgBadToken := "Invalid or expired token"

  /** `ENV.JWT_SECRET`, read once from the process environment: the
      variable when it is set and non-empty, otherwise "supersecret". */
  function ConfiguredJwtSecret(processEnv: Option<string>): (secret: string)
    ensures secret != ""
    ensures processEnv.Some? && processEnv.value != "" ==> secret == processEnv.value
    ensures processEnv.None? || processEnv.value == "" ==> secret == "supersecret"
  {
    if processEnv.Some? && processEnv.value != "" then processEnv.value else EnvJwtSecretDefault
  }

  /** The service's `jwtSecret`: `ENV.JWT_SECRET || 'your-secret-key'`. */
  function JwtSecret(configured: string): (secret: string)
    ensures secret != ""
    ensures configured != "" ==> secret == configured
    ensures configured == "" ==> secret == "your-secret-key"
  {
    if configured != "" then configured else DefaultJwtSecret
  }

  /** Since `ENV.JWT_SECRET` is never empty, the service's own fallback is
      never taken: tokens are signed with the environment variable, or with
      "supersecret" when it is unset or empty. */
  lemma ServiceSecretIsEnvironmentSecret(processEnv: Option<string>)
    ensures processEnv.Some? && processEnv.value != "" ==> JwtSecret(ConfiguredJwtSecret(processEnv)) == processEnv.value
    ensures processEnv.None? || processEnv.value == "" ==> JwtSecret(ConfiguredJwtSecret(processEnv)) == "supersecret"
  {
    var configured := ConfiguredJwtSecret(processEnv);
    assert configured != "";
  }

  function Public(u: UserRow): PublicUser {
    PublicUser(u.id, u.name, u.email)
  }

  function PayloadOf(u: UserRow): JwtPayload {
    JwtPayload(u.id, u.email, u.name)
  }

  /** `SELECT * FROM users WHERE email = ?`, first row. */
  function FindByEmail(rows: seq<UserRow>, email: string): (r: Option<UserRow>)
    ensures r.None? <==> forall i :: 0 <= i < |rows| ==> rows[i].email != email
    ensures r.Some? ==> r.value in rows && r.value.email == email
    ensures r.Some? && |rows| > 0 && rows[0].email == email ==> r.value == rows[0]
  {
    if rows == [] then None
    else if rows[0].email == email then Some(rows[0])
    else FindByEmail(rows[1..], email)
  }

  /** `SELECT * FROM users WHERE id = ?`, first row. */
  function FindById(rows: seq<UserRow>, id: int): (r: Option<UserRow>)
    ensures r.None? <==> forall i :: 0 <= i < |rows| ==> rows[i].id != id
    ensures r.Some? ==> r.value in rows && r.value.id == id
  {
    if rows == [] then None
    else if rows[0].id == id then Some(rows[0])
    else FindById(rows[1..], id)
  }

  /** A lookup on a table with a row appended finds the old rows first. */
  lemma {:induction false} FindByEmailAppend(rows: seq<UserRow>, row: UserRow, email: string)
    ensures FindByEmail(rows + [row], email) ==
      if FindByEmail(rows, email).Some? then FindByEmail(rows, email)
      else if row.email == email then Some(row) else None
  {
    if rows != [] {
      assert (rows + [row])[1..] == rows[1..] + [row];
      FindByEmailAppend(rows[1..], row, email);
    }
  }

  lemma {:induction false} FindByIdAppend(rows: seq<UserRow>, row: UserRow, id: int)
    ensures FindById(rows + [row], id) ==
      if FindById(rows, id).Some? then FindById(rows, id)
      else if row.id == id then Some(row) else None
  {
    if rows != [] {
      assert (rows + [row])[1..] == rows[1..] + [row];
      FindByIdAppend(rows[1..], row, id);
    }
  }

  /** `generateToken`: the payload signed with a fixed 24-hour expiry. */
  function GenerateToken(c: Crypto, secret: string, p: JwtPayload, now: int): (token: string)
    ensures JwtSound(c) ==> token != "" && c.verify(token, secret, now) == Some(Claims(p, now, now + 86400))
  {
    c.sign(Claims(p, now, now + JwtExpiresIn), secret)
  }

  /** `verifyToken`: every failure of the verifier becomes the one error
      "Invalid or expired token". */
  function VerifyToken(c: Crypto, secret: string, token: string, now: int): (r: Result<JwtPayload, string>)
    ensures r.Err? <==> c.verify(token, secret, now).None?
    ensures r.Err? ==> r.error == "Invalid or expired token"
    ensures r.Ok? ==> r.value == c.verify(token, secret, now).value.payload
  {
    match c.verify(token, secret, now)
    case Some(claims) => Ok(claims.payload)
    case None => Err(MsgBadToken)
  }

  /** A token the service generated verifies to its payload for 24 hours
      and is refused from then on. */
  lemma TokenRoundTrip(c: Crypto, secret: string, p: JwtPayload, issuedAt: int, now: int)
    requires JwtSound(c)
    ensures now < issuedAt + 86400 ==> VerifyToken(c, secret, GenerateToken(c, secret, p, issuedAt), now) == Ok(p)
    ensures now >= issuedAt + 86400 ==> VerifyToken(c, secret, GenerateToken(c, secret, p, issuedAt), now) == Err("Invalid or expired token")
  {
    var cl := Claims(p, issuedAt, issuedAt + JwtExpiresIn);
    assert c.verify(c.sign(cl, secret), secret, now) == if now < cl.exp then Some(cl) else None;
  }

  /** `login`: the same error for an unknown email and for a wrong password. */
  function Login(rows: seq<UserRow>, req: LoginRequest, c: Crypto, secret: string, now: int): (r: Result<AuthResponse, string>)
    ensures r.Err? ==> r.error == "Invalid email or password"
    ensures r.Ok? <==> FindByEmail(rows, req.email).Some? && c.compare(req.password, FindByEmail(rows, req.email).value.password)
    ensures r.Ok? ==> r.value.user == Public(FindByEmail(rows, req.email).value)
    ensures r.Ok? ==> r.value.token == GenerateToken(c, secret, PayloadOf(FindByEmail(rows, req.email).value), now)
  {
    var user := FindByEmail(rows, req.email);
    if user.None? then Err(MsgBadCredentials)
    else if !c.compare(req.password, user.value.password) then Err(MsgBadCredentials)
    else
      var token := GenerateToken(c, secret, PayloadOf(user.value), now);
      Ok(AuthResponse(Public(user.value), token))
  }

  /** A client cannot tell an unknown email from a wrong password. */
  lemma LoginFailuresIndistinguishable(rows: seq<UserRow>, unknown: LoginRequest, wrong: LoginRequest, c: Crypto, secret: string, now: int)
    requires FindByEmail(rows, unknown.email).None?
    requires FindByEmail(rows, wrong.email).Some? && !c.compare(wrong.password, FindByEmail(rows, wrong.email).value.password)
    ensures Login(rows, unknown, c, secret, now) == Login(rows, wrong, c, secret, now) == Err("Invalid email or password")
  {
  }

  /** The row `register` inserts: the hash, never the plaintext, and
      `NOW()` for both timestamps. */
  function NewRow(id: int, req: RegisterRequest, c: Crypto, salt: string, now: int): (row: UserRow)
    ensures row.id == id && row.name == req.name && row.email == req.email
    ensures row.createdAt == now && row.updatedAt == now
    ensures HashSound(c) ==> c.compare(req.password, row.password)
    ensures PayloadOf(row) == JwtPayload(id, req.email, req.name) && Public(row) == PublicUser(id, req.name, req.email)
  {
    UserRow(id, req.name, req.email, c.hash(req.password, SaltRounds, salt), now, now)
  }

  /** Ids grow with insertion order and are positive; emails are unique (the
      table's unique index). */
  ghost predicate TableInvariant(rows: seq<UserRow>, nextId: int) {
    && nextId >= 1
    && (forall i :: 0 <= i < |rows| ==> 1 <= rows[i].id < nextId)
    && (forall i, j :: 0 <= i < j < |rows| ==> rows[i].id < rows[j].id)
    && (forall i, j :: 0 <= i < j < |rows| ==> rows[i].email != rows[j].email)
  }

  /** Under the unique index an email names at most one row, the one the
      lookup finds. */
  lemma EmailIdentifiesRow(rows: seq<UserRow>, nextId: int, email: string)
    ensures TableInvariant(rows, nextId) && FindByEmail(rows, email).Some? ==>
      forall u :: u in rows && u.email == email ==> u == FindByEmail(rows, email).value
  {
    if TableInvariant(rows, nextId) && FindByEmail(rows, email).Some? {
      var found := FindByEmail(rows, email).value;
      forall u | u in rows && u.email == email
        ensures u == found
      {
        var i :| 0 <= i < |rows| && rows[i] == u;
        var j :| 0 <= j < |rows| && rows[j] == found;
        assert i == j;
      }
    }
  }

  /** Ids are distinct, so an id names at most one row, the one the lookup
      finds. */
  lemma IdIdentifiesRow(rows: seq<UserRow>, nextId: int, id: int)
    ensures TableInvariant(rows, nextId) && FindById(rows, id).Some? ==>
      forall u :: u in rows && u.id == id ==> u == FindById(rows, id).value
  {
    if TableInvariant(rows, nextId) && FindById(rows, id).Some? {
      var found := FindById(rows, id).value;
      forall u | u in rows && u.id == id
        ensures u == found
      {
        var i :| 0 <= i < |rows| && rows[i] == u;
        var j :| 0 <= j < |rows| && rows[j] == found;
        assert i == j;
      }
    }
  }

  /** Once registered, the same email and password log in, as the user just
      created. */
  lemma RegisterThenLogin(rows: seq<UserRow>, id: int, req: RegisterRequest, c: Crypto, salt: string, secret: string, now: int, later: int)
    requires HashSound(c)
    requires FindByEmail(rows, req.email).None?
    ensures var r := Login(rows + [NewRow(id, req, c, salt, now)], LoginRequest(req.email, req.password), c, secret, later);
      r.Ok? && r.value.user == PublicUser(id, req.name, req.email)
  {
    FindByEmailAppend(rows, NewRow(id, req, c, salt, now), req.email);
  }

  /** The `users` table with its AUTO_INCREMENT counter. */
  class UserTable {
    var rows: seq<UserRow>
    var nextId: int

    ghost predicate Valid()
      reads this
    {
      TableInvariant(rows, nextId)
    }

    constructor ()
      ensures Valid() && rows == [] && nextId == 1
    {
      rows := [];
      nextId := 1;
    }

    /** `findUserByEmail`: the row with that email, the only one there is. */
    function FindUserByEmail(email: string): (r: Option<UserRow>)
      reads this
      ensures r.None? <==> forall u :: u in rows ==> u.email != email
      ensures r.Some? ==> r.value in rows && r.value.email == email
      ensures Valid() && r.Some? ==> forall u :: u in rows && u.email == email ==> u == r.value
    {
      EmailIdentifiesRow(rows, nextId, email);
      FindByEmail(rows, email)
    }

    /** `findUserById`: the row with that id, the only one there is. */
    function FindUserById(id: int): (r: Option<UserRow>)
      reads this
      ensures r.None? <==> forall u :: u in rows ==> u.id != id
      ensures r.Some? ==> r.value in rows && r.value.id == id
      ensures Valid() && r.Some? ==> forall u :: u in rows && u.id == id ==> u == r.value
    {
      IdIdentifiesRow(rows, nextId, id);
      FindById(rows, id)
    }

    /** `register`: refuses a stored email and inserts nothing; otherwise
        inserts one row holding the password's hash and answers with the
        new user and a token for it. */
    method Register(req: RegisterRequest, c: Crypto, secret: string, salt: string, now: int) returns (r: Result<AuthResponse, string>)
      requires Valid()
      modifies this
      ensures Valid()
      ensures old(FindByEmail(rows, req.email)).Some? ==>
        r == Err("Email already registered") && rows == old(rows) && nextId == old(nextId)
      ensures old(FindByEmail(rows, req.email)).None? ==>
        var row := NewRow(old(nextId), req, c, salt, now);
        && rows == old(rows) + [row]
        && nextId == old(nextId) + 1
        && r == Ok(AuthResponse(Public(row), GenerateToken(c, secret, PayloadOf(row), now)))
        && FindById(rows, old(nextId)) == Some(row)
    {
      var existing := FindByEmail(rows, req.email);
      if existing.Some? {
        return Err(MsgEmailTaken);
      }
      var hashed := c.hash(req.password, SaltRounds, salt);
      var insertId := nextId;
      var row := UserRow(insertId, req.name, req.email, hashed, now, now);
      FindByIdAppend(rows, row, insertId);
      rows := rows + [row];
      nextId := nextId + 1;
      var newUser := FindById(rows, insertId);
      if newUser.None? {
        return Err(MsgCreateFailed);
      }
      var token := GenerateToken(c, secret, PayloadOf(newUser.value), now);
      r := Ok(AuthResponse(Public(newUser.value), token));
    }

    /** `login` on the current table: it succeeds exactly when the row
        holding that email has a hash the password matches, and answers as
        that row's user. */
    function LoginUser(req: LoginRequest, c: Crypto, secret: string, now: int): (r: Result<AuthResponse, string>)
      reads this
      ensures r.Err? ==> r.error == "Invalid email or password"
      ensures r.Ok? ==>
        exists u :: (u in rows && u.email == req.email && c.compare(req.password, u.password) &&
                     r.value.user == Public(u) && r.value.token == GenerateToken(c, secret, PayloadOf(u), now))
      ensures Valid() && (exists u :: u in rows && u.email == req.email && c.compare(req.password, u.password)) ==> r.Ok?
    {
      EmailIdentifiesRow(rows, nextId, req.email);
      Login(rows, req, c, secret, now)
    }
  }
}

=== FILE: book_controller.dfy ===
/** The handlers of src/modules/books/book.controller.ts: each validates its
    input, consults the catalogue, and answers with a status and one of the
    envelopes of src/utils/response.ts. */
module BookController {
  import opened Common
  import opened ApiResponse
  import opened BookValidation
  import opened BookService

  /** The `data` of a success envelope. */
  datatype BookPayload = OneBook(book: Book) | Books(books: seq<Book>) | Page(page: PageResult) | NoData

  /** The query string of `GET /books`. Numeric parameters hold `Number(p)`
      of a parameter that is present and non-empty (an empty one counts as
      absent, as `req.query.p ? Number(p) : undefined` does). */
  datatype BookQuery = BookQuery(
    title: Option<string>, author: Option<string>, genre: Option<string>,
    minPrice: Option<real>, maxPrice: Option<real>, minStock: Option<real>,
    publishedYear: Option<real>, page: Option<int>, limit: Option<int>)

  const MsgIsbnExists := "Book with this ISBN already exists"
  const MsgNotFound := "Book not found"
  /** Stands for Joi's `error.details[0].message`, whose text is not modelled. */
  const MsgInvalidBody := "Invalid request body"
  const MsgInvalidId := "Invalid book ID format"
  const MsgIdRequired := "Book ID is required"

  function Fail(message: string, status: int): HttpResponse<BookPayload> {
    HttpResponse(status, Failure(Some(message), Some(status)))
  }

  function Succeed(status: int, data: BookPayload, message: string): HttpResponse<BookPayload> {
    HttpResponse(status, Success(data, Some(message)))
  }

  /** The message the id schema reports; the pattern and `required` have
      their own texts in the schema. */
  function IdError(id: Value): string {
    if id.Absent? then MsgIdRequired else MsgInvalidId
  }

  /** `getAll`: page 1 and limit 10 unless the query gives them. */
  method GetAll(store: Catalogue, query: BookQuery, re: RegexMatch) returns (resp: HttpResponse<BookPayload>)
    requires store.Valid()
    requires query.page.GetOr(1) >= 1 && query.limit.GetOr(10) >= 1
    ensures resp.status == 200 && resp.body.SuccessFlag() && resp.body.data.Page?
    ensures resp.body.message == "Books retrieved successfully"
    ensures resp.body.data.page.page == query.page.GetOr(1) && resp.body.data.page.limit == query.limit.GetOr(10)
    ensures |resp.body.data.page.books| <= query.limit.GetOr(10)
    ensures var f := BookFilters(query.title, query.author, query.genre, query.minPrice, query.maxPrice, query.minStock, query.publishedYear);
      && resp.body.data.page.total == |Matching(store.Listing(), f, re)|
      && resp.body.data.page.books == Paginate(Matching(store.Listing(), f, re), (query.page.GetOr(1) - 1) * query.limit.GetOr(10), query.limit.GetOr(10))
      && forall b :: b in resp.body.data.page.books ==> Satisfies(f, b, re) && b.id in store.books
    ensures resp.body.data.page.totalPages * query.limit.GetOr(10) >= resp.body.data.page.total
    ensures resp.body.data.page.totalPages > 0 ==> (resp.body.data.page.totalPages - 1) * query.limit.GetOr(10) < resp.body.data.page.total
  {
    var filters := BookFilters(query.title, query.author, query.genre, query.minPrice, query.maxPrice, query.minStock, query.publishedYear);
    var page, limit := query.page.GetOr(1), query.limit.GetOr(10);
    var result := store.GetAll(filters, PaginationOptions(Some(page), Some(limit)), re);
    assert result.page == page && result.limit == limit;
    resp := Succeed(200, Page(result), "Books retrieved successfully");
  }

  /** `getById`: 400 for a malformed id, 404 for an unknown one. */
  function GetById(store: Catalogue, id: Value): (resp: HttpResponse<BookPayload>)
    reads store
    ensures resp.status == 400 <==> !ValidBookId(id)
    ensures resp.status == 404 <==> ValidBookId(id) && ObjectIdKey(id.s) !in store.books
    ensures resp.status == 200 <==> ValidBookId(id) && ObjectIdKey(id.s) in store.books
    ensures resp.status == 200 ==> resp.body == Success(OneBook(store.books[ObjectIdKey(id.s)]), Some("Book retrieved successfully"))
  {
    if !ValidBookId(id) then Fail(IdError(id), 400)
    else
      var book := store.GetById(id.s);
      if book.None? then Fail(MsgNotFound, 404)
      else Succeed(200, OneBook(book.value), "Book retrieved successfully")
  }

  /** `GET /books/:id` answers alike for two spellings of an id that differ
      only in the case of their hex letters. */
  lemma GetByIdIgnoresCase(store: Catalogue, a: string, b: string)
    requires ValidBookId(Str(a))
    requires |a| == |b| && forall i :: 0 <= i < |a| ==> LowerHexDigit(a[i]) == LowerHexDigit(b[i])
    ensures GetById(store, Str(a)) == GetById(store, Str(b))
  {
    var ka, kb := ObjectIdKey(a), ObjectIdKey(b);
    assert forall i :: 0 <= i < |ka| ==> ka[i] == kb[i];
    assert ka == kb;
    forall i | 0 <= i < |b|
      ensures IsHexDigit(b[i])
    {
      assert IsLowerHexDigit(LowerHexDigit(a[i]));
    }
  }

  /** `search`: 400 when `q` is missing or empty. */
  function Search(store: Catalogue, q: Option<string>, re: RegexMatch): (resp: HttpResponse<BookPayload>)
    requires store.Valid()
    reads store
    ensures resp.status == 400 <==> q.None? || q.value == ""
    ensures resp.status == 400 ==> resp.body == Failure(Some("Search query is required"), Some(400))
    ensures resp.status != 400 ==>
      resp == HttpResponse(200, Success(Books(store.SearchBooks(q.value, re)), Some("Search completed successfully")))
  {
    if q.None? || q.value == "" then Fail("Search query is required", 400)
    else Succeed(200, Books(store.SearchBooks(q.value, re)), "Search completed successfully")
  }

  /** `getByGenre`: 400 when the genre is empty. */
  function GetByGenre(store: Catalogue, genre: string, re: RegexMatch): (resp: HttpResponse<BookPayload>)
    requires store.Valid()
    reads store
    ensures resp.status == 400 <==> genre == ""
    ensures resp.status != 400 ==>
      resp == HttpResponse(200, Success(Books(store.BooksByGenre(genre, re)), Some("Books in " + genre + " genre retrieved successfully")))
  {
    if genre == "" then Fail("Genre is required", 400)
    else Succeed(200, Books(store.BooksByGenre(genre, re)), "Books in " + genre + " genre retrieved successfully")
  }

  /** `getByAuthor`: 400 when the author is empty. */
  function GetByAuthor(store: Catalogue, author: string, re: RegexMatch): (resp: HttpResponse<BookPayload>)
    requires store.Valid()
    reads store
    ensures resp.status == 400 <==> author == ""
    ensures resp.status != 400 ==>
      resp == HttpResponse(200, Success(Books(store.BooksByAuthor(author, re)), Some("Books by " + author + " retrieved successfully")))
  {
    if author == "" then Fail("Author is required", 400)
    else Succeed(200, Books(store.BooksByAuthor(author, re)), "Books by " + author + " retrieved successfully")
  }

  /** `create`: 400 before touching the store when the body is invalid, 409
      when another book has the ISBN, 201 otherwise. */
  method Create(store: Catalogue, body: BookBody, schemaYear: int, newId: string) returns (resp: HttpResponse<BookPayload>)
    requires store.Valid()
    requires newId !in store.books && IsObjectId(newId)
    modifies store
    ensures store.Valid()
    ensures ValidateCreate(body, schemaYear).None? ==>
      resp == Fail(MsgInvalidBody, 400) && store.books == old(store.books) && store.order == old(store.order)
    ensures ValidateCreate(body, schemaYear).Some? ==>
      var v := ValidateCreate(body, schemaYear).value;
      if v.isbn.Some? && old(store.GetByIsbn(v.isbn.value)).Some? then
        resp == Fail(MsgIsbnExists, 409) && store.books == old(store.books) && store.order == old(store.order)
      else
        resp == Succeed(201, OneBook(NewBook(newId, v)), "Book created successfully") &&
        store.books == old(store.books)[newId := NewBook(newId, v)] && store.order == old(store.order) + [newId]
  {
    var validated := ValidateCreate(body, schemaYear);
    if validated.None? {
      return Fail(MsgInvalidBody, 400);
    }
    var value := validated.value;
    if value.isbn.Some? && value.isbn.value != "" {
      var existing := store.GetByIsbn(value.isbn.value);
      if existing.Some? {
        return Fail(MsgIsbnExists, 409);
      }
    }
    TrimOfTrimmed(value.title.value);
    TrimOfTrimmed(value.author.value);
    if value.isbn.Some? {
      // Joi hands back a trimmed ISBN, so the schema's own trimming keeps it.
      TrimOfTrimmed(value.isbn.value);
    }
    var created := store.Create(newId, value);
    if created.Err? {
      return Fail("Failed to create book", 500);
    }
    resp := Succeed(201, OneBook(created.value), "Book created successfully");
  }

  /** `update`: id format (400), body (400), existence (404), ISBN taken by
      another book (409), then the update. Re-sending the book's own ISBN is
      not a conflict. */
  method Update(store: Catalogue, id: Value, body: BookBody, schemaYear: int) returns (resp: HttpResponse<BookPayload>)
    requires store.Valid()
    modifies store
    ensures store.Valid() && store.order == old(store.order)
    ensures !ValidBookId(id) ==> resp == Fail(IdError(id), 400) && store.books == old(store.books)
    ensures ValidBookId(id) && ValidateUpdate(body, schemaYear).None? ==>
      resp == Fail(MsgInvalidBody, 400) && store.books == old(store.books)
    ensures ValidBookId(id) && ValidateUpdate(body, schemaYear).Some? && ObjectIdKey(id.s) !in old(store.books) ==>
      resp == Fail(MsgNotFound, 404) && store.books == old(store.books)
    ensures ValidBookId(id) && ValidateUpdate(body, schemaYear).Some? && ObjectIdKey(id.s) in old(store.books) ==>
      var v := ValidateUpdate(body, schemaYear).value;
      var current := old(store.books)[ObjectIdKey(id.s)];
      if v.isbn.Some? && v.isbn != current.isbn && old(store.GetByIsbn(v.isbn.value)).Some? then
        resp == Fail(MsgIsbnExists, 409) && store.books == old(store.books)
      else
        resp == Succeed(200, OneBook(ApplyUpdate(current, v)), "Book updated successfully") &&
        store.books == old(store.books)[ObjectIdKey(id.s) := ApplyUpdate(current, v)]
  {
    if !ValidBookId(id) {
      return Fail(IdError(id), 400);
    }
    var validated := ValidateUpdate(body, schemaYear);
    if validated.None? {
      return Fail(MsgInvalidBody, 400);
    }
    var value := validated.value;
    var existing := store.GetById(id.s);
    if existing.None? {
      return Fail(MsgNotFound, 404);
    }
    if value.isbn.Some? && value.isbn.value != "" && value.isbn != existing.value.isbn {
      var sameIsbn := store.GetByIsbn(value.isbn.value);
      if sameIsbn.Some? {
        return Fail(MsgIsbnExists, 409);
      }
    }
    if value.isbn.Some? {
      // Joi hands back a trimmed ISBN, so the schema's own trimming keeps it.
      TrimOfTrimmed(value.isbn.value);
    }
    var updated := store.Update(id.s, value);
    if updated.Err? {
      return Fail("Failed to update book", 500);
    }
    if updated.value.None? {
      // Not reached: the document was found just above. The source would
      // answer 200 with `data: null`.
      return Succeed(200, NoData, "Book updated successfully");
    }
    resp := Succeed(200, OneBook(updated.value.value), "Book updated successfully");
  }

  /** `delete`: 400 for a malformed id, 404 when nothing was deleted. */
  method Delete(store: Catalogue, id: Value) returns (resp: HttpResponse<BookPayload>)
    requires store.Valid()
    modifies store
    ensures store.Valid()
    ensures !ValidBookId(id) ==> resp == Fail(IdError(id), 400) && store.books == old(store.books) && store.order == old(store.order)
    ensures ValidBookId(id) && ObjectIdKey(id.s) !in old(store.books) ==>
      resp == Fail(MsgNotFound, 404) && store.books == old(store.books) && store.order == old(store.order)
    ensures ValidBookId(id) && ObjectIdKey(id.s) in old(store.books) ==>
      && resp == Succeed(200, NoData, "Book deleted successfully")
      && store.books == old(store.books) - {ObjectIdKey(id.s)}
      && store.order == Remove(old(store.order), ObjectIdKey(id.s))
  {
    if !ValidBookId(id) {
      return Fail(IdError(id), 400);
    }
    var deleted := store.Delete(id.s);
    if deleted.None? {
      return Fail(MsgNotFound, 404);
    }
    resp := Succeed(200, NoData, "Book deleted successfully");
  }

  /** `updateStock`: 400 for a malformed id or a quantity that is not a
      number, 404 for an unknown book, else the stock grows by `quantity`. */
  method UpdateStock(store: Catalogue, id: Value, quantity: Value) returns (resp: HttpResponse<BookPayload>)
    requires store.Valid()
    modifies store
    ensures store.Valid() && store.order == old(store.order)
    ensures !ValidBookId(id) ==> resp == Fail(IdError(id), 400) && store.books == old(store.books)
    ensures ValidBookId(id) && !quantity.Num? ==>
      resp == Fail("Quantity must be a number", 400) && store.books == old(store.books)
    ensures ValidBookId(id) && quantity.Num? && ObjectIdKey(id.s) !in old(store.books) ==>
      resp == Fail(MsgNotFound, 404) && store.books == old(store.books)
    ensures ValidBookId(id) && quantity.Num? && ObjectIdKey(id.s) in old(store.books) ==>
      var b := old(store.books)[ObjectIdKey(id.s)].(stock := old(store.books)[ObjectIdKey(id.s)].stock + quantity.n);
      resp == Succeed(200, OneBook(b), "Book stock updated successfully") && store.books == old(store.books)[ObjectIdKey(id.s) := b]
  {
    if !ValidBookId(id) {
      return Fail(IdError(id), 400);
    }
    if !quantity.Num? {
      return Fail("Quantity must be a number", 400);
    }
    var book := store.UpdateStock(id.s, quantity.n);
    if book.None? {
      return Fail(MsgNotFound, 404);
    }
    resp := Succeed(200, OneBook(book.value), "Book stock updated successfully");
  }
}

=== FILE: book_service.dfy ===
/** The book catalogue of src/modules/books/book.service.ts over the Mongoose
    model of book.model.ts: a collection of documents keyed by ObjectId,
    queried newest first, with a unique sparse index on `isbn`. */
module BookService {
  import opened Common
  import opened BookValidation

  /** A stored book document. Optional keys are `None`; `stock` defaults to 0
      on creation. The creation time (`createdAt`) is not a field: the
      catalogue keeps documents in creation order instead. */
  datatype Book = Book(
    id: string, title: string, author: string, description: Option<string>,
    isbn: Option<string>, publishedYear: Option<int>, genre: Option<string>,
    price: Option<real>, stock: real)

  /** A case-insensitive `$regex` test, `matches(pattern, text)`. Regular
      expressions are not modelled: every query takes the matcher as a
      parameter. */
  type RegexMatch = (string, string) -> bool

  /** `IBookFilters`: every key optional. */
  datatype BookFilters = BookFilters(
    title: Option<string>, author: Option<string>, genre: Option<string>,
    minPrice: Option<real>, maxPrice: Option<real>, minStock: Option<real>,
    publishedYear: Option<real>)

  /** `IPaginationOptions` */
  datatype PaginationOptions = PaginationOptions(page: Option<int>, limit: Option<int>)

  /** The `price` entry of a filter document, `{$gte?, $lte?}`. */
  datatype PriceRange = PriceRange(gte: Option<real>, lte: Option<real>)

  /** The filter document `getAll` builds; `None` means the key is absent.
      title, author and genre hold `$regex` patterns, stock a `$gte` bound,
      publishedYear an equality. */
  datatype FilterQuery = FilterQuery(
    title: Option<string>, author: Option<string>, genre: Option<string>,
    price: Option<PriceRange>, stock: Option<real>, publishedYear: Option<real>)

  /** The documents `Book.find` is given: a filter document, or the `$or` of
      `searchBooks` over title, author, description and genre. */
  datatype MongoQuery = Where(filter: FilterQuery) | AnyTextField(pattern: string)

  /** What `getAll` returns. */
  datatype PageResult = PageResult(books: seq<Book>, total: nat, page: int, limit: int, totalPages: int)

  /** Errors the storage layer raises: a missing required key, or a second
      document with the same ISBN under the unique index. */
  datatype StoreError = ValidationError | DuplicateKey

  const DefaultPage := 1
  const DefaultLimit := 10

  predicate IsLowerHexDigit(c: char) {
    ('0' <= c <= '9') || ('a' <= c <= 'f')
  }

  /** The string form of an ObjectId, as the driver prints it: 24 hex
      digits in lower case. */
  predicate IsObjectId(id: string) {
    |id| == 24 && forall i :: 0 <= i < |id| ==> IsLowerHexDigit(id[i])
  }

  /** A hex digit as the ObjectId parser reads it: case does not matter. */
  function LowerHexDigit(c: char): (d: char)
    ensures IsHexDigit(c) ==> IsLowerHexDigit(d)
    ensures IsLowerHexDigit(c) ==> d == c
    ensures 'A' <= c <= 'F' ==> d as int == c as int + ('a' as int - 'A' as int)
    ensures !('A' <= c <= 'F') ==> d == c
  {
    if 'A' <= c <= 'F' then (c as int - 'A' as int + 'a' as int) as char else c
  }

  /** The stored id a string id names: `findById` and its kin cast a
      24-digit hex string to an ObjectId, whose string form is in lower
      case, so two spellings that differ only in case name one document. */
  function ObjectIdKey(id: string): (key: string)
    ensures |key| == |id|
    ensures forall i :: 0 <= i < |id| ==> key[i] == LowerHexDigit(id[i])
    ensures ValidBookId(Str(id)) ==> IsObjectId(key)
    ensures IsObjectId(id) ==> key == id
  {
    seq(|id|, i requires 0 <= i < |id| => LowerHexDigit(id[i]))
  }

  /** In a collection keyed by ObjectId strings no two keys name the same
      ObjectId: there is never a second document whose id differs from a
      stored one only in case. */
  lemma OneDocumentPerObjectId(books: map<string, Book>, a: string, b: string)
    requires forall id :: id in books ==> IsObjectId(id)
    requires a in books && b in books && ObjectIdKey(a) == ObjectIdKey(b)
    ensures a == b
  {
    assert ObjectIdKey(a) == a;
  }

  predicate Distinct(s: seq<string>) {
    forall i, j :: 0 <= i < j < |s| ==> s[i] != s[j]
  }

  /** The unique sparse index: books without an ISBN never clash. */
  ghost predicate IsbnUnique(books: map<string, Book>) {
    forall a, b :: a in books && b in books && books[a].isbn.Some? && books[a].isbn == books[b].isbn ==> a == b
  }

  /** Some book other than `id` already carries `isbn`. */
  ghost predicate IsbnHeldByOther(books: map<string, Book>, isbn: string, id: string) {
    exists other :: other in books && other != id && books[other].isbn == Some(isbn)
  }

  // ---------------------------------------------------------------------
  // Matching a document against a query

  /** A `$regex` constraint: absent, or the field exists and matches. */
  predicate RegexOk(pattern: Option<string>, field: Option<string>, re: RegexMatch) {
    pattern.Some? ==> field.Some? && re(pattern.value, field.value)
  }

  /** `price: {$gte?, $lte?}`. With neither bound the entry is the empty
      document `{}`, an equality that no number satisfies. */
  predicate PriceOk(range: PriceRange, price: Option<real>) {
    && (range.gte.None? && range.lte.None? ==> false)
    && price.Some?
    && (range.gte.Some? ==> price.value >= range.gte.value)
    && (range.lte.Some? ==> price.value <= range.lte.value)
  }

  /** Mongo's reading of a filter document: every key present constrains
      the document. The empty document selects everything; an empty `price`
      entry selects nothing. */
  function Matches(q: FilterQuery, b: Book, re: RegexMatch): (m: bool)
    ensures q == FilterQuery(None, None, None, None, None, None) ==> m
    ensures q.price == Some(PriceRange(None, None)) ==> !m
    ensures m && q.stock.Some? ==> b.stock >= q.stock.value
    ensures m && q.genre.Some? ==> b.genre.Some?
  {
    && RegexOk(q.title, Some(b.title), re)
    && RegexOk(q.author, Some(b.author), re)
    && RegexOk(q.genre, b.genre, re)
    && (q.price.Some? ==> PriceOk(q.price.value, b.price))
    && (q.stock.Some? ==> b.stock >= q.stock.value)
    && (q.publishedYear.Some? ==> b.publishedYear.Some? && b.publishedYear.value as real == q.publishedYear.value)
  }

  /** The text fields a document has: title and author always, description
      and genre when set. */
  function TextFields(b: Book): seq<string> {
    [b.title, b.author] +
    (if b.description.Some? then [b.description.value] else []) +
    (if b.genre.Some? then [b.genre.value] else [])
  }

  /** Mongo's reading of a query: a filter document, or the `$or` of
      `searchBooks`, which holds when any text field the document has
      matches (a missing field matches no `$regex`). */
  function QueryMatches(q: MongoQuery, b: Book, re: RegexMatch): (m: bool)
    ensures q.Where? ==> (m <==> Matches(q.filter, b, re))
    ensures q.AnyTextField? ==> (m <==> exists t :: t in TextFields(b) && re(q.pattern, t))
  {
    assert q.AnyTextField? ==> forall t :: t in TextFields(b) ==>
      t == b.title || t == b.author || (b.description.Some? && t == b.description.value) || (b.genre.Some? && t == b.genre.value);
    match q
    case Where(f) => Matches(f, b, re)
    case AnyTextField(p) =>
      re(p, b.title) || re(p, b.author) ||
      (b.description.Some? && re(p, b.description.value)) || (b.genre.Some? && re(p, b.genre.value))
  }

  /** What a caller of `getAll` asks for, read directly off the filters:
      text filters apply when non-empty, price and stock bounds when defined,
      the year when it is non-zero. */
  predicate Satisfies(f: BookFilters, b: Book, re: RegexMatch) {
    && (f.title.Some? && f.title.value != "" ==> re(f.title.value, b.title))
    && (f.author.Some? && f.author.value != "" ==> re(f.author.value, b.author))
    && (f.genre.Some? && f.genre.value != "" ==> b.genre.Some? && re(f.genre.value, b.genre.value))
    && (f.minPrice.Some? ==> b.price.Some? && b.price.value >= f.minPrice.value)
    && (f.maxPrice.Some? ==> b.price.Some? && b.price.value <= f.maxPrice.value)
    && (f.minStock.Some? ==> b.stock >= f.minStock.value)
    && (f.publishedYear.Some? && f.publishedYear.value != 0.0 ==>
          b.publishedYear.Some? && b.publishedYear.value as real == f.publishedYear.value)
  }

  /** `getAll`'s construction of `filterQuery`, key by key. */
  method BuildFilterQuery(f: BookFilters) returns (q: FilterQuery)
    ensures q.title.Some? <==> f.title.Some? && f.title.value != ""
    ensures q.author.Some? <==> f.author.Some? && f.author.value != ""
    ensures q.genre.Some? <==> f.genre.Some? && f.genre.value != ""
    ensures q.title.Some? ==> q.title == f.title
    ensures q.author.Some? ==> q.author == f.author
    ensures q.genre.Some? ==> q.genre == f.genre
    ensures q.price.Some? <==> f.minPrice.Some? || f.maxPrice.Some?
    ensures q.price.Some? ==> q.price.value.gte == f.minPrice && q.price.value.lte == f.maxPrice
    ensures q.stock == f.minStock
    ensures q.publishedYear.Some? <==> f.publishedYear.Some? && f.publishedYear.value != 0.0
    ensures q.publishedYear.Some? ==> q.publishedYear == f.publishedYear
  {
    q := FilterQuery(None, None, None, None, None, None);
    if f.title.Some? && f.title.value != "" {
      q := q.(title := f.title);
    }
    if f.author.Some? && f.author.value != "" {
      q := q.(author := f.author);
    }
    if f.genre.Some? && f.genre.value != "" {
      q := q.(genre := f.genre);
    }
    if f.minPrice.Some? || f.maxPrice.Some? {
      var price := PriceRange(None, None);
      if f.minPrice.Some? {
        price := price.(gte := f.minPrice);
      }
      if f.maxPrice.Some? {
        price := price.(lte := f.maxPrice);
      }
      q := q.(price := Some(price));
    }
    if f.minStock.Some? {
      q := q.(stock := f.minStock);
    }
    if f.publishedYear.Some? && f.publishedYear.value != 0.0 {
      q := q.(publishedYear := f.publishedYear);
    }
  }

  /** The key-by-key correspondence `BuildFilterQuery` establishes. */
  predicate Encodes(q: FilterQuery, f: BookFilters) {
    && (q.title.Some? <==> f.title.Some? && f.title.value != "") && (q.title.Some? ==> q.title == f.title)
    && (q.author.Some? <==> f.author.Some? && f.author.value != "") && (q.author.Some? ==> q.author == f.author)
    && (q.genre.Some? <==> f.genre.Some? && f.genre.value != "") && (q.genre.Some? ==> q.genre == f.genre)
    && (q.price.Some? <==> f.minPrice.Some? || f.maxPrice.Some?)
    && (q.price.Some? ==> q.price.value.gte == f.minPrice && q.price.value.lte == f.maxPrice)
    && q.stock == f.minStock
    && (q.publishedYear.Some? <==> f.publishedYear.Some? && f.publishedYear.value != 0.0)
    && (q.publishedYear.Some? ==> q.publishedYear == f.publishedYear)
  }

  /** A filter document built that way selects exactly the books the
      filters ask for. */
  lemma EncodedQueryMeaning(q: FilterQuery, f: BookFilters, b: Book, re: RegexMatch)
    requires Encodes(q, f)
    ensures Matches(q, b, re) <==> Satisfies(f, b, re)
  {
  }

  // ---------------------------------------------------------------------
  // Sequences of documents

  /** The documents of `bs` that `q` selects, in order. */
  function Select(bs: seq<Book>, q: MongoQuery, re: RegexMatch): (r: seq<Book>)
    ensures |r| <= |bs|
    ensures forall b :: b in r ==> b in bs && QueryMatches(q, b, re)
    ensures forall b :: b in bs && QueryMatches(q, b, re) ==> b in r
  {
    if bs == [] then []
    else (if QueryMatches(q, bs[0], re) then [bs[0]] else []) + Select(bs[1..], q, re)
  }

  /** Selecting from two runs of documents one after the other gives the
      selections of each run in that order: the query keeps the order of
      the sequence it filters. */
  lemma {:induction false} SelectOfConcat(a: seq<Book>, b: seq<Book>, q: MongoQuery, re: RegexMatch)
    ensures Select(a + b, q, re) == Select(a, q, re) + Select(b, q, re)
  {
    if a == [] {
      assert a + b == b;
    } else {
      assert (a + b)[1..] == a[1..] + b;
      SelectOfConcat(a[1..], b, q, re);
    }
  }

  /** The documents of `bs` that satisfy the filters, in order. */
  function Matching(bs: seq<Book>, f: BookFilters, re: RegexMatch): (r: seq<Book>)
    ensures |r| <= |bs|
    ensures forall b :: b in r ==> b in bs && Satisfies(f, b, re)
    ensures forall b :: b in bs && Satisfies(f, b, re) ==> b in r
  {
    if bs == [] then []
    else (if Satisfies(f, bs[0], re) then [bs[0]] else []) + Matching(bs[1..], f, re)
  }

  /** Evaluating a filter document that means the same as the filters
      selects the same documents. */
  lemma {:induction false} SelectAgrees(bs: seq<Book>, q: FilterQuery, f: BookFilters, re: RegexMatch)
    requires forall b :: Matches(q, b, re) <==> Satisfies(f, b, re)
    ensures Select(bs, Where(q), re) == Matching(bs, f, re)
  {
    if bs != [] {
      SelectAgrees(bs[1..], q, f, re);
    }
  }

  /** `.skip(skip).limit(limit)` on an already sorted result. */
  function Paginate(s: seq<Book>, skip: int, limit: int): (r: seq<Book>)
    requires skip >= 0 && limit > 0
    ensures |r| <= limit
    ensures |r| == if skip >= |s| then 0 else if |s| - skip < limit then |s| - skip else limit
    ensures forall k :: 0 <= k < |r| ==> r[k] == s[skip + k]
    ensures forall b :: b in r ==> b in s
  {
    if skip >= |s| then [] else s[skip..if skip + limit <= |s| then skip + limit else |s|]
  }

  /** `Math.ceil(total / limit)`. */
  function CeilDiv(total: nat, limit: int): (n: nat)
    requires limit > 0
    ensures n * limit >= total
    ensures n > 0 ==> (n - 1) * limit < total
    ensures total == 0 ==> n == 0
  {
    var n := (total + limit - 1) / limit;
    var m := (total + limit - 1) % limit;
    assert total + limit - 1 == n * limit + m;
    assert n * limit >= total;
    assert n > 0 ==> (n - 1) * limit < total by {
      if n > 0 {
        assert (n - 1) * limit == n * limit - limit;
      }
    }
    n
  }

  /** The documents of the catalogue newest first, given `order` oldest
      first. */
  function NewestFirst(books: map<string, Book>, order: seq<string>): (r: seq<Book>)
    requires forall id :: id in order ==> id in books && books[id].id == id
    ensures |r| == |order|
    ensures forall k :: 0 <= k < |r| ==> r[k] == books[order[|order| - 1 - k]]
    ensures forall b :: b in r ==> b.id in books && books[b.id] == b
  {
    if order == [] then []
    else [books[order[|order| - 1]]] + NewestFirst(books, order[..|order| - 1])
  }

  /** The first id in `order` whose book carries `isbn` (`findOne`). */
  function FirstWithIsbn(books: map<string, Book>, order: seq<string>, isbn: string): (r: Option<string>)
    requires forall id :: id in order ==> id in books
    ensures r.Some? ==> r.value in order && books[r.value].isbn == Some(isbn)
    ensures r.None? ==> forall id :: id in order ==> books[id].isbn != Some(isbn)
  {
    if order == [] then None
    else if books[order[0]].isbn == Some(isbn) then Some(order[0])
    else FirstWithIsbn(books, order[1..], isbn)
  }

  /** `order` without `x`. */
  function Remove(s: seq<string>, x: string): (r: seq<string>)
    ensures forall y :: y in r <==> y in s && y != x
    ensures Distinct(s) ==> Distinct(r)
  {
    if s == [] then []
    else if s[0] == x then Remove(s[1..], x)
    else
      var rest := Remove(s[1..], x);
      assert Distinct(s) ==> s[0] !in rest;
      [s[0]] + rest
  }

  function TrimOpt(s: Option<string>): Option<string> {
    if s.Some? then Some(Trim(s.value)) else None
  }

  /** The document `new Book(data)` builds: the schema trims every string
      and defaults stock to 0. */
  function NewBook(id: string, data: BookInput): (b: Book)
    requires data.title.Some? && data.author.Some?
    ensures b.id == id
    ensures Trimmed(b.title) && Trimmed(b.author) && IsTrimOf(data.title.value, b.title) && IsTrimOf(data.author.value, b.author)
    ensures b.description.Some? <==> data.description.Some?
    ensures b.isbn.Some? <==> data.isbn.Some?
    ensures b.genre.Some? <==> data.genre.Some?
    ensures b.publishedYear == data.publishedYear && b.price == data.price
    ensures data.description.Some? ==> b.description == Some(Trim(data.description.value))
    ensures data.isbn.Some? ==> b.isbn == Some(Trim(data.isbn.value))
    ensures data.genre.Some? ==> b.genre == Some(Trim(data.genre.value))
    ensures data.stock.None? ==> b.stock == 0.0
    ensures data.stock.Some? ==> b.stock == data.stock.value as real
  {
    Book(id, Trim(data.title.value), Trim(data.author.value), TrimOpt(data.description),
         TrimOpt(data.isbn), data.publishedYear, TrimOpt(data.genre), data.price,
         if data.stock.Some? then data.stock.value as real else 0.0)
  }

  /** `$set` of every key present in `data`, strings trimmed by the schema. */
  function ApplyUpdate(b: Book, data: BookInput): (u: Book)
    ensures u.id == b.id
    ensures data.title.None? ==> u.title == b.title
    ensures data.author.None? ==> u.author == b.author
    ensures data.description.None? ==> u.description == b.description
    ensures data.isbn.None? ==> u.isbn == b.isbn
    ensures data.publishedYear.None? ==> u.publishedYear == b.publishedYear
    ensures data.genre.None? ==> u.genre == b.genre
    ensures data.price.None? ==> u.price == b.price
    ensures data.stock.None? ==> u.stock == b.stock
    ensures data.title.Some? ==> Trimmed(u.title) && IsTrimOf(data.title.value, u.title)
    ensures data.author.Some? ==> Trimmed(u.author) && IsTrimOf(data.author.value, u.author)
    ensures data.description.Some? ==> u.description == Some(Trim(data.description.value))
    ensures data.isbn.Some? ==> u.isbn == Some(Trim(data.isbn.value))
    ensures data.genre.Some? ==> u.genre == Some(Trim(data.genre.value))
    ensures data.publishedYear.Some? ==> u.publishedYear == data.publishedYear
    ensures data.price.Some? ==> u.price == data.price
    ensures data.stock.Some? ==> u.stock == data.stock.value as real
  {
    Book(b.id,
         if data.title.Some? then Trim(data.title.value) else b.title,
         if data.author.Some? then Trim(data.author.value) else b.author,
         if data.description.Some? then TrimOpt(data.description) else b.description,
         if data.isbn.Some? then TrimOpt(data.isbn) else b.isbn,
         if data.publishedYear.Some? then data.publishedYear else b.publishedYear,
         if data.genre.Some? then TrimOpt(data.genre) else b.genre,
         if data.price.Some? then data.price else b.price,
         if data.stock.Some? then data.stock.value as real else b.stock)
  }

  // ---------------------------------------------------------------------
  // The collection

  class Catalogue {
    /** Documents by id. */
    var books: map<string, Book>
    /** Ids in creation order, oldest first (ascending `createdAt`). */
    var order: seq<string>

    ghost predicate Valid()
      reads this
    {
      && Distinct(order)
      && (forall id :: id in books <==> id in order)
      && (forall id :: id in books ==> books[id].id == id && IsObjectId(id))
      && IsbnUnique(books)
    }

    constructor ()
      ensures Valid() && books == map[] && order == []
    {
      books := map[];
      order := [];
    }

    /** All documents, newest first (`sort({createdAt: -1})`). */
    function Listing(): (r: seq<Book>)
      requires Valid()
      reads this
      ensures |r| == |books| == |order|
      ensures forall b :: b in r ==> b.id in books && books[b.id] == b
      ensures forall k :: 0 <= k < |r| ==> r[k] == books[order[|order| - 1 - k]]
      ensures forall i, j :: 0 <= i < j < |r| ==> r[i] != r[j]
    {
      assert |books.Keys| == |order| by {
        assert books.Keys == set id | id in order;
        DistinctCard(order);
      }
      NewestFirst(books, order)
    }

    /** `Book.find(q).sort({createdAt: -1})` */
    function Find(q: MongoQuery, re: RegexMatch): (r: seq<Book>)
      requires Valid()
      reads this
      ensures forall b :: b in r ==> QueryMatches(q, b, re) && b.id in books && books[b.id] == b
      ensures forall id :: id in books && QueryMatches(q, books[id], re) ==> books[id] in r
    {
      var all := Listing();
      assert forall id :: id in books ==> books[id] in all by {
        forall id | id in books ensures books[id] in all {
          var k :| 0 <= k < |order| && order[k] == id;
          assert all[|order| - 1 - k] == books[id];
        }
      }
      Select(all, q, re)
    }

    /** `getById`: `Book.findById(id)`, the document under the ObjectId
        the string names. */
    function GetById(id: string): (r: Option<Book>)
      reads this
      ensures r.Some? <==> ObjectIdKey(id) in books
      ensures r.Some? ==> r.value == books[ObjectIdKey(id)]
    {
      var key := ObjectIdKey(id);
      if key in books then Some(books[key]) else None
    }

    /** `getByIsbn`: `Book.findOne({isbn})`, the first document in natural
        order with that ISBN. */
    function GetByIsbn(isbn: string): (r: Option<Book>)
      requires Valid()
      reads this
      ensures r.None? <==> forall id :: id in books ==> books[id].isbn != Some(isbn)
      ensures r.Some? ==> r.value.isbn == Some(isbn) && r.value.id in books && books[r.value.id] == r.value
    {
      var first := FirstWithIsbn(books, order, isbn);
      if first.Some? then Some(books[first.value]) else None
    }

    /** `searchBooks`: any of title, author, description, genre matches. */
    function SearchBooks(query: string, re: RegexMatch): (r: seq<Book>)
      requires Valid()
      reads this
      ensures forall b :: b in r ==> b.id in books && books[b.id] == b
      ensures forall b :: b in r ==> (
        || re(query, b.title) || re(query, b.author)
        || (b.description.Some? && re(query, b.description.value))
        || (b.genre.Some? && re(query, b.genre.value)))
      ensures forall id :: id in books && QueryMatches(AnyTextField(query), books[id], re) ==> books[id] in r
    {
      Find(AnyTextField(query), re)
    }

    /** `getBooksByGenre`: `{genre: {$regex: genre}}`. */
    function BooksByGenre(genre: string, re: RegexMatch): (r: seq<Book>)
      requires Valid()
      reads this
      ensures forall b :: b in r ==> b.id in books && b.genre.Some? && re(genre, b.genre.value)
      ensures forall id :: id in books && books[id].genre.Some? && re(genre, books[id].genre.value) ==> books[id] in r
    {
      Find(Where(FilterQuery(None, None, Some(genre), None, None, None)), re)
    }

    /** `getBooksByAuthor`: `{author: {$regex: author}}`. */
    function BooksByAuthor(author: string, re: RegexMatch): (r: seq<Book>)
      requires Valid()
      reads this
      ensures forall b :: b in r ==> b.id in books && re(author, b.author)
      ensures forall id :: id in books && re(author, books[id].author) ==> books[id] in r
    {
      Find(Where(FilterQuery(None, Some(author), None, None, None, None)), re)
    }

    /** `getAll`: defaults page 1 and limit 10, skips `(page - 1) * limit`
        of the newest-first matches, counts all matches, and rounds the page
        count up. */
    method GetAll(filters: BookFilters, pagination: PaginationOptions, re: RegexMatch) returns (r: PageResult)
      requires Valid()
      requires pagination.page.GetOr(DefaultPage) >= 1 && pagination.limit.GetOr(DefaultLimit) >= 1
      ensures r.page == pagination.page.GetOr(1) && r.limit == pagination.limit.GetOr(10)
      ensures r.total == |Matching(Listing(), filters, re)|
      ensures r.books == Paginate(Matching(Listing(), filters, re), (r.page - 1) * r.limit, r.limit)
      ensures |r.books| <= r.limit
      ensures forall b :: b in r.books ==> Satisfies(filters, b, re) && b.id in books && books[b.id] == b
      ensures r.totalPages * r.limit >= r.total
      ensures r.totalPages > 0 ==> (r.totalPages - 1) * r.limit < r.total
    {
      var page := pagination.page.GetOr(DefaultPage);
      var limit := pagination.limit.GetOr(DefaultLimit);
      var skip := (page - 1) * limit;
      var filterQuery := BuildFilterQuery(filters);
      forall b | true ensures Matches(filterQuery, b, re) <==> Satisfies(filters, b, re) {
        EncodedQueryMeaning(filterQuery, filters, b, re);
      }
      var all := Listing();
      var matches := Select(all, Where(filterQuery), re);
      SelectAgrees(all, filterQuery, filters, re);
      var found := Paginate(matches, skip, limit);
      var total := |matches|;
      r := PageResult(found, total, page, limit, CeilDiv(total, limit));
    }

    /** `create`: `new Book(data).save()`. The store refuses a document
        without title or author (`required`) and an ISBN that another
        document already has (the unique index). */
    method Create(id: string, data: BookInput) returns (r: Result<Book, StoreError>)
      requires Valid()
      requires id !in books && IsObjectId(id)
      modifies this
      ensures Valid()
      ensures r.Err? ==> books == old(books) && order == old(order)
      ensures r.Err? <==>
        data.title.None? || data.author.None? || Trim(data.title.value) == "" || Trim(data.author.value) == "" ||
        (data.isbn.Some? && IsbnHeldByOther(old(books), Trim(data.isbn.value), id))
      ensures r.Ok? ==> r.value == NewBook(id, data) && books == old(books)[id := r.value] && order == old(order) + [id]
      ensures r.Ok? ==> forall other :: other in old(books) ==> ObjectIdKey(other) != ObjectIdKey(id)
    {
      if data.title.None? || data.author.None? || Trim(data.title.value) == "" || Trim(data.author.value) == "" {
        return Err(ValidationError);
      }
      var b := NewBook(id, data);
      if b.isbn.Some? && FirstWithIsbn(books, order, b.isbn.value).Some? {
        return Err(DuplicateKey);
      }
      StoreKeepsIsbnUnique(books, id, b);
      books := books[id := b];
      order := order + [id];
      r := Ok(b);
    }

    /** `update`: `findByIdAndUpdate(id, data, {new: true})`. Null when the
        id is absent; the unique index refuses an ISBN another document
        holds. */
    method Update(id: string, data: BookInput) returns (r: Result<Option<Book>, StoreError>)
      requires Valid()
      modifies this
      ensures Valid()
      ensures order == old(order)
      ensures ObjectIdKey(id) !in old(books) ==> r == Ok(None) && books == old(books)
      ensures var key := ObjectIdKey(id);
        key in old(books) && data.isbn.Some? && IsbnHeldByOther(old(books), Trim(data.isbn.value), key) ==>
        r == Err(DuplicateKey) && books == old(books)
      ensures var key := ObjectIdKey(id);
        key in old(books) && !(data.isbn.Some? && IsbnHeldByOther(old(books), Trim(data.isbn.value), key)) ==>
        r == Ok(Some(ApplyUpdate(old(books)[key], data))) && books == old(books)[key := r.value.value]
    {
      var key := ObjectIdKey(id);
      if key !in books {
        return Ok(None);
      }
      if data.isbn.Some? {
        var holder := FirstWithIsbn(books, order, Trim(data.isbn.value));
        if holder.Some? && holder.value != key {
          return Err(DuplicateKey);
        }
      }
      var b := ApplyUpdate(books[key], data);
      assert b.isbn.Some? ==> !IsbnHeldByOther(books, b.isbn.value, key) by {
        if data.isbn.None? && b.isbn.Some? {
          assert b.isbn == books[key].isbn;
        }
      }
      StoreKeepsIsbnUnique(books, key, b);
      books := books[key := b];
      r := Ok(Some(b));
    }

    /** `delete`: `findByIdAndDelete(id)`. */
    method Delete(id: string) returns (r: Option<Book>)
      requires Valid()
      modifies this
      ensures Valid()
      ensures r.Some? <==> ObjectIdKey(id) in old(books)
      ensures r.Some? ==> r.value == old(books)[ObjectIdKey(id)]
      ensures books == old(books) - {ObjectIdKey(id)}
      ensures forall other :: other in books ==> books[other] == old(books)[other]
      ensures ObjectIdKey(id) in old(books) ==> order == Remove(old(order), ObjectIdKey(id))
      ensures ObjectIdKey(id) !in old(books) ==> order == old(order)
    {
      var key := ObjectIdKey(id);
      if key !in books {
        return None;
      }
      r := Some(books[key]);
      books := books - {key};
      order := Remove(order, key);
    }

    /** `updateStock`: `{$inc: {stock: quantity}}` on the document, which
        comes back updated; null when the id is absent. */
    method UpdateStock(id: string, quantity: real) returns (r: Option<Book>)
      requires Valid()
      modifies this
      ensures Valid()
      ensures order == old(order)
      ensures ObjectIdKey(id) !in old(books) ==> r.None? && books == old(books)
      ensures var key := ObjectIdKey(id);
        key in old(books) ==> r == Some(old(books)[key].(stock := old(books)[key].stock + quantity))
      ensures ObjectIdKey(id) in old(books) ==> books == old(books)[ObjectIdKey(id) := r.value]
    {
      var key := ObjectIdKey(id);
      if key !in books {
        return None;
      }
      var b := books[key];
      b := b.(stock := b.stock + quantity);
      books := books[key := b];
      r := Some(b);
    }
  }

  /** Storing `b` under `id` keeps ISBNs unique when no other document
      holds `b`'s ISBN. */
  lemma StoreKeepsIsbnUnique(books: map<string, Book>, id: string, b: Book)
    requires IsbnUnique(books)
    requires b.isbn.Some? ==> !IsbnHeldByOther(books, b.isbn.value, id)
    ensures IsbnUnique(books[id := b])
  {
    var nb := books[id := b];
    forall x, y | x in nb && y in nb && nb[x].isbn.Some? && nb[x].isbn == nb[y].isbn
      ensures x == y
    {
      if x != id && y != id {
        assert nb[x] == books[x] && nb[y] == books[y];
      }
    }
  }

  /** A sequence without repeats has as many distinct elements as entries. */
  lemma {:induction false} DistinctCard(s: seq<string>)
    requires Distinct(s)
    ensures |set x | x in s| == |s|
  {
    if s != [] {
      DistinctCard(s[1..]);
      assert (set x | x in s) == (set x | x in s[1..]) + {s[0]};
    }
  }
}

=== FILE: book_validation.dfy ===
/** The Joi schemas of src/modules/books/book.validation.ts, field by field.
    Validation either rejects the body or yields the converted value Joi
    returns: strings trimmed, numbers checked. */
module BookValidation {
  import opened Common

  /** A JSON value as it arrives in a request body, as far as the schemas
      distinguish it: a key that is not there, a string, a number, or
      anything else (null, a boolean, an object, an array). */
  datatype Value = Absent | Str(s: string) | Num(n: real) | Other

  /** The body of a create or update request. */
  datatype BookBody = BookBody(
    title: Value, author: Value, description: Value, isbn: Value,
    publishedYear: Value, genre: Value, price: Value, stock: Value)

  /** The validated, converted body (`value` in the controller). */
  datatype BookInput = BookInput(
    title: Option<string>, author: Option<string>, description: Option<string>,
    isbn: Option<string>, publishedYear: Option<int>, genre: Option<string>,
    price: Option<real>, stock: Option<int>)

  /** Outcome of validating one field. */
  datatype Field<T> = Invalid | Omitted | Given(value: T) {
    function ToOption(): Option<T>
      requires !Invalid?
    {
      if Given? then Some(value) else None
    }
  }

  const TitleMax := 255
  const AuthorMax := 255
  const DescriptionMax := 1000
  const GenreMax := 100
  const YearMin := 1000
  /** How far past the current year `publishedYear` may go. */
  const YearAhead := 10
  const BookIdLength := 24

  predicate IsHexDigit(c: char) {
    ('0' <= c <= '9') || ('a' <= c <= 'f') || ('A' <= c <= 'F')
  }

  /** The character class `[0-9-X]`: a digit, a hyphen or an upper-case X. */
  predicate IsIsbnChar(c: char) {
    ('0' <= c <= '9') || c == '-' || c == 'X'
  }

  /** Scans `s` for a character that is not a hex digit. */
  function AllHex(s: string): (r: bool)
    ensures r <==> forall i :: 0 <= i < |s| ==> IsHexDigit(s[i])
  {
    if s == [] then true else IsHexDigit(s[0]) && AllHex(s[1..])
  }

  /** Scans `s` for a character outside `[0-9-X]`. */
  function AllIsbnChars(s: string): (r: bool)
    ensures r <==> forall i :: 0 <= i < |s| ==> IsIsbnChar(s[i])
  {
    if s == [] then true else IsIsbnChar(s[0]) && AllIsbnChars(s[1..])
  }

  /** A JavaScript number is an integer (`Math.trunc(v) === v`). */
  predicate IsInteger(n: real) {
    n.Floor as real == n
  }

  /** `bookIdSchema`: `id` is a required string matching `^[0-9a-fA-F]{24}$`. */
  function ValidBookId(id: Value): (ok: bool)
    ensures ok <==> id.Str? && |id.s| == 24 && forall i :: 0 <= i < |id.s| ==> IsHexDigit(id.s[i])
    ensures id.Absent? ==> !ok
  {
    match id
    case Str(s) => |s| == BookIdLength && AllHex(s)
    case _ => false
  }

  /** `Joi.string().trim().max(maxLen)`, required or optional. Joi trims
      first, then refuses the empty string (`string.empty`), then checks the
      length; a non-string is refused (`string.base`). The `min(1)` rule of
      title and author is implied by `string.empty`. */
  function TextField(v: Value, required: bool, maxLen: nat): (r: Field<string>)
    ensures r.Omitted? <==> v.Absent? && !required
    ensures r.Given? <==> v.Str? && 1 <= |Trim(v.s)| <= maxLen
    ensures r.Given? ==> r.value == Trim(v.s)
  {
    match v
    case Absent => if required then Invalid else Omitted
    case Str(s) =>
      var t := Trim(s);
      if t == "" || |t| > maxLen then Invalid else Given(t)
    case _ => Invalid
  }

  /** `isbn`: optional, trimmed, matching `^[0-9-X]+$`. */
  function IsbnField(v: Value): (r: Field<string>)
    ensures r.Omitted? <==> v.Absent?
    ensures r.Given? <==> v.Str? && Trim(v.s) != "" && forall i :: 0 <= i < |Trim(v.s)| ==> IsIsbnChar(Trim(v.s)[i])
    ensures r.Given? ==> r.value == Trim(v.s)
  {
    match v
    case Absent => Omitted
    case Str(s) =>
      var t := Trim(s);
      if t != "" && AllIsbnChars(t) then Given(t) else Invalid
    case _ => Invalid
  }

  /** `publishedYear`: an optional integer in [1000, schemaYear + 10].
      `schemaYear` is `new Date().getFullYear()` evaluated once, when the
      schema module was loaded. */
  function YearField(v: Value, schemaYear: int): (r: Field<int>)
    ensures r.Omitted? <==> v.Absent?
    ensures r.Given? <==> v.Num? && IsInteger(v.n) && 1000.0 <= v.n <= (schemaYear + 10) as real
    ensures r.Given? ==> r.value as real == v.n
  {
    match v
    case Absent => Omitted
    case Num(n) =>
      if IsInteger(n) && YearMin as real <= n && n <= (schemaYear + YearAhead) as real then Given(n.Floor) else Invalid
    case _ => Invalid
  }

  /** `price`: an optional number, at least 0, not necessarily an integer. */
  function PriceField(v: Value): (r: Field<real>)
    ensures r.Omitted? <==> v.Absent?
    ensures r.Given? <==> v.Num? && v.n >= 0.0
    ensures r.Given? ==> r.value == v.n
  {
    match v
    case Absent => Omitted
    case Num(n) => if n >= 0.0 then Given(n) else Invalid
    case _ => Invalid
  }

  /** `stock`: an optional integer, at least 0. */
  function StockField(v: Value): (r: Field<int>)
    ensures r.Omitted? <==> v.Absent?
    ensures r.Given? <==> v.Num? && IsInteger(v.n) && v.n >= 0.0
    ensures r.Given? ==> r.value >= 0 && r.value as real == v.n
  {
    match v
    case Absent => Omitted
    case Num(n) => if IsInteger(n) && n >= 0.0 then Given(n.Floor) else Invalid
    case _ => Invalid
  }

  /** The shared part of both schemas: every field but title and author. */
  function ValidateRest(b: BookBody, schemaYear: int, title: Field<string>, author: Field<string>): Option<BookInput> {
    var description := TextField(b.description, false, DescriptionMax);
    var isbn := IsbnField(b.isbn);
    var year := YearField(b.publishedYear, schemaYear);
    var genre := TextField(b.genre, false, GenreMax);
    var price := PriceField(b.price);
    var stock := StockField(b.stock);
    if title.Invalid? || author.Invalid? || description.Invalid? || isbn.Invalid? ||
       year.Invalid? || genre.Invalid? || price.Invalid? || stock.Invalid?
    then None
    else Some(BookInput(title.ToOption(), author.ToOption(), description.ToOption(), isbn.ToOption(),
                        year.ToOption(), genre.ToOption(), price.ToOption(), stock.ToOption()))
  }

  /** Field outcome `f` is a pass that converts to `o`. */
  predicate Gives<T(==)>(f: Field<T>, o: Option<T>) {
    !f.Invalid? && f.ToOption() == o
  }

  /** Every field of `b` passes and `i` holds the converted values. */
  predicate Accepts(b: BookBody, schemaYear: int, i: BookInput, titleRequired: bool) {
    && Gives(TextField(b.title, titleRequired, TitleMax), i.title)
    && Gives(TextField(b.author, titleRequired, AuthorMax), i.author)
    && Gives(TextField(b.description, false, DescriptionMax), i.description)
    && Gives(IsbnField(b.isbn), i.isbn)
    && Gives(YearField(b.publishedYear, schemaYear), i.publishedYear)
    && Gives(TextField(b.genre, false, GenreMax), i.genre)
    && Gives(PriceField(b.price), i.price)
    && Gives(StockField(b.stock), i.stock)
  }

  /** Every string Joi hands back has been trimmed. */
  predicate InputTrimmed(i: BookInput) {
    && (i.title.Some? ==> Trimmed(i.title.value))
    && (i.author.Some? ==> Trimmed(i.author.value))
    && (i.description.Some? ==> Trimmed(i.description.value))
    && (i.isbn.Some? ==> Trimmed(i.isbn.value))
    && (i.genre.Some? ==> Trimmed(i.genre.value))
  }

  /** `createBookSchema.validate(body)`: title and author are required. */
  function ValidateCreate(b: BookBody, schemaYear: int): (r: Option<BookInput>)
    ensures r.Some? ==> r.value.title.Some? && r.value.author.Some?
    ensures r.Some? ==> 1 <= |r.value.title.value| <= 255 && 1 <= |r.value.author.value| <= 255
    ensures r.Some? ==> b.title.Str? && b.author.Str? && r.value.title.value == Trim(b.title.s) && r.value.author.value == Trim(b.author.s)
    ensures b.title.Absent? || b.author.Absent? ==> r.None?
    ensures r.Some? ==> Accepts(b, schemaYear, r.value, true) && InputTrimmed(r.value)
    ensures r.None? ==> forall i :: !Accepts(b, schemaYear, i, true)
  {
    ValidateRest(b, schemaYear, TextField(b.title, true, TitleMax), TextField(b.author, true, AuthorMax))
  }

  /** `updateBookSchema.validate(body)`: the same rules with title and author
      optional. */
  function ValidateUpdate(b: BookBody, schemaYear: int): (r: Option<BookInput>)
    ensures r.Some? && r.value.title.Some? ==> 1 <= |r.value.title.value| <= 255
    ensures r.Some? && r.value.author.Some? ==> 1 <= |r.value.author.value| <= 255
    ensures r.Some? ==> Accepts(b, schemaYear, r.value, false) && InputTrimmed(r.value)
    ensures r.None? ==> forall i :: !Accepts(b, schemaYear, i, false)
  {
    ValidateRest(b, schemaYear, TextField(b.title, false, TitleMax), TextField(b.author, false, AuthorMax))
  }

  /** Any body the create schema accepts, the update schema accepts with the
      same converted value: the two schemas differ only in `required`. */
  lemma CreateAcceptedImpliesUpdateAccepted(b: BookBody, schemaYear: int)
    requires ValidateCreate(b, schemaYear).Some?
    ensures ValidateUpdate(b, schemaYear) == ValidateCreate(b, schemaYear)
  {
    assert TextField(b.title, true, TitleMax) == TextField(b.title, false, TitleMax);
    assert TextField(b.author, true, AuthorMax) == TextField(b.author, false, AuthorMax);
  }

  /** A lower-case `x` is outside the ISBN class, wherever it appears. */
  lemma LowercaseXRejected(prefix: string, suffix: string)
    ensures IsbnField(Str(prefix + "x" + suffix)).Invalid?
  {
    var s := prefix + "x" + suffix;
    var t := Trim(s);
    var i, j :| 0 <= i <= j <= |s| && t == s[i..j] && AllSpace(s[..i]) && AllSpace(s[j..]) && Trimmed(t);
    var k := |prefix|;
    assert s[k] == 'x';
    assert t[k - i] == 'x';
  }
}

=== FILE: common.dfy ===
/** Values shared by every module: optional values, success/failure results,
    and JavaScript's `String.prototype.trim`, which Joi applies to every
    string field it validates. */
module Common {

  datatype Option<T> = None | Some(value: T) {
    /** The value, or `default` when absent: JavaScript's `x ?? d` and
        default parameters. */
    function GetOr(default: T): T {
      if Some? then value else default
    }
  }

  datatype Result<T, E> = Ok(value: T) | Err(error: E)

  /** The characters `trim` removes: ECMAScript WhiteSpace (tab, vertical tab,
      form feed, space, no-break space, the byte-order mark and the Unicode
      space separators) and LineTerminator (LF, CR, U+2028, U+2029). */
  predicate IsJsSpace(c: char) {
    var n := c as int;
    n == 0x09 || n == 0x0A || n == 0x0B || n == 0x0C || n == 0x0D ||
    n == 0x20 || n == 0xA0 || n == 0x1680 || (0x2000 <= n <= 0x200A) ||
    n == 0x2028 || n == 0x2029 || n == 0x202F || n == 0x205F ||
    n == 0x3000 || n == 0xFEFF
  }

  ghost predicate AllSpace(s: string) {
    forall i :: 0 <= i < |s| ==> IsJsSpace(s[i])
  }

  /** Neither end of `s` is a space: what `trim` leaves behind. */
  predicate Trimmed(s: string) {
    s == [] || (!IsJsSpace(s[0]) && !IsJsSpace(s[|s| - 1]))
  }

  /** `r` is `s` with a run of spaces cut from each end and no space left at
      either end of `r`. */
  ghost predicate IsTrimOf(s: string, r: string) {
    exists i, j :: 0 <= i <= j <= |s| && r == s[i..j] && AllSpace(s[..i]) && AllSpace(s[j..]) && Trimmed(r)
  }

  /** Number of spaces at the start of `s`. */
  function LeadingSpaces(s: string): (k: nat)
    ensures k <= |s|
    ensures forall i :: 0 <= i < k ==> IsJsSpace(s[i])
    ensures k < |s| ==> !IsJsSpace(s[k])
  {
    if s == [] || !IsJsSpace(s[0]) then 0 else 1 + LeadingSpaces(s[1..])
  }

  /** Length of `s` once the spaces at its end are cut off. */
  function EndWithoutSpaces(s: string): (k: nat)
    ensures k <= |s|
    ensures forall i :: k <= i < |s| ==> IsJsSpace(s[i])
    ensures 0 < k ==> !IsJsSpace(s[k - 1])
  {
    if s == [] || !IsJsSpace(s[|s| - 1]) then |s| else EndWithoutSpaces(s[..|s| - 1])
  }

  /** JavaScript's `s.trim()`. */
  function Trim(s: string): (r: string)
    ensures |r| <= |s|
    ensures Trimmed(r)
    ensures IsTrimOf(s, r)
  {
    var i := LeadingSpaces(s);
    var t := s[i..];
    var j := EndWithoutSpaces(t);
    assert s[i..][..j] == s[i..i + j];
    assert s[i + j..] == t[j..];
    assert Trimmed(t[..j]) by {
      if j > 0 && !IsJsSpace(t[0]) { }
    }
    t[..j]
  }

  /** Trimming twice is trimming once. */
  lemma TrimIdempotent(s: string)
    ensures Trim(Trim(s)) == Trim(s)
  {
    TrimOfTrimmed(Trim(s));
  }

  /** A string with no space at either end is its own trim. */
  lemma TrimOfTrimmed(s: string)
    requires Trimmed(s)
    ensures Trim(s) == s
  {
    assert LeadingSpaces(s) == 0;
    assert s[0..] == s;
    assert EndWithoutSpaces(s) == |s|;
  }
}

=== FILE: error_handler.dfy ===
/** The last-resort Express error handler of src/middleware/errorHandler.ts:
    whatever was thrown becomes a `{success: false, message}` body with a
    status taken from the error when it carries one. */
module ErrorHandling {

  /** A key of a JavaScript object: absent (`'k' in err` is false), present
      but `null`/`undefined`, or present with a value. */
  datatype Prop<T> = Missing | Nullish | Present(value: T)

  /** The thrown value `err: unknown`. `typeof null` is `'object'`, so null is
      kept apart from the other non-objects (strings, numbers, ...). */
  datatype Thrown = NonObject | Null | Object(status: Prop<int>, message: Prop<string>)

  datatype ErrorBody = ErrorBody(success: bool, message: string)
  datatype ErrorResponse = ErrorResponse(status: int, body: ErrorBody)

  const DefaultStatus := 500
  const DefaultMessage := "Internal Server Error"

  /** `'k' in err` */
  predicate HasKey<T>(p: Prop<T>) {
    !p.Missing?
  }

  /** `err.k ?? fallback` */
  function Coalesce<T>(p: Prop<T>, fallback: T): T {
    if p.Present? then p.value else fallback
  }

  /** `typeof err === 'object' && err !== null` */
  predicate IsNonNullObject(err: Thrown) {
    err.Object?
  }

  function ErrorHandler(err: Thrown): (r: ErrorResponse)
    ensures !r.body.success
    ensures (err.Object? && err.status.Present?) ==> r.status == err.status.value
    ensures !(err.Object? && err.status.Present?) ==> r.status == 500
    ensures (err.Object? && err.message.Present?) ==> r.body.message == err.message.value
    ensures !(err.Object? && err.message.Present?) ==> r.body.message == "Internal Server Error"
  {
    var status := if IsNonNullObject(err) && HasKey(err.status) then Coalesce(err.status, DefaultStatus) else DefaultStatus;
    var message := if IsNonNullObject(err) && HasKey(err.message) then Coalesce(err.message, DefaultMessage) else DefaultMessage;
    ErrorResponse(status, ErrorBody(false, message))
  }
}

=== FILE: response.dfy ===
/** The JSON envelopes of src/utils/response.ts, and the status/body pair an
    Express handler sends. */
module ApiResponse {
  import opened Common

  /** `{success: true, message, data}` or `{success: false, message, status}`. */
  datatype Envelope<T> = SuccessBody(message: string, data: T) | FailureBody(message: string, status: int) {
    /** The value stored under the `success` key. */
    predicate SuccessFlag() {
      SuccessBody?
    }

    /** The keys of the JSON object. */
    function Keys(): set<string> {
      if SuccessBody? then {"success", "message", "data"} else {"success", "message", "status"}
    }
  }

  /** What `res.status(status).json(body)` sends; `res.json(body)` alone sends 200. */
  datatype HttpResponse<T> = HttpResponse(status: int, body: Envelope<T>)

  const DefaultSuccessMessage := "OK"
  const DefaultFailureMessage := "Error"
  const DefaultFailureStatus := 400

  /** `success(data, message = 'OK')`; `None` stands for an omitted (undefined) message. */
  function Success<T>(data: T, message: Option<string>): (r: Envelope<T>)
    ensures r.SuccessFlag() && r.Keys() == {"success", "message", "data"}
    ensures r.data == data
    ensures message.Some? ==> r.message == message.value
    ensures message.None? ==> r.message == "OK"
  {
    SuccessBody(message.GetOr(DefaultSuccessMessage), data)
  }

  /** `failure(message = 'Error', status = 400)`. */
  function Failure<T>(message: Option<string>, status: Option<int>): (r: Envelope<T>)
    ensures !r.SuccessFlag() && r.Keys() == {"success", "message", "status"}
    ensures message.Some? ==> r.message == message.value
    ensures message.None? ==> r.message == "Error"
    ensures status.Some? ==> r.status == status.value
    ensures status.None? ==> r.status == 400
  {
    FailureBody(message.GetOr(DefaultFailureMessage), status.GetOr(DefaultFailureStatus))
  }
}
